=== FILE: README.md ===
# composer: process-lifecycle model

composer is a process supervisor. It reads a list of services, starts each one
once every service in its `wait` list has stopped, and forwards the services'
output to its own log with a colored name prefix. When one service fails, it
shuts the others down. When a service stops, it kills the services named in
its `kill` hooks.

This project models that bookkeeping as pure Dafny functions and proves the
properties the code relies on. It has one module per Go file, plus helper
modules:

- `Registry` (registry.go) holds the three partitions `ready`, `running` and
  `stopped`, the name → process table and the license-to-kill list.
  `updateStatus` moves names between the partitions and then publishes a
  snapshot.
- `Observer` (observer.go) is the ordered observer list and its fan-out.
- `Process` (process.go) covers:
  - the dependency gate: `update` prunes the `wait` list and `wait` is the
    readiness test;
  - the command split and working directory;
  - `paddedName` and `extractMessage`.
- `Processor` (processor.go) turns each goroutine into steps on a state:
  - a task's body is four steps: it starts once `wait()` returns, its `run`
    returns, it closes `Done` and marks itself stopped, and it sends its kill
    list;
  - the terminator takes one step per kill list it receives and one per name
    it stops;
  - `handleErrors` takes one step per error it receives, and its first
    non-nil error runs the guarded `shutdown`.

  Any sequence of these steps is a run (`Execute`). A run uses either the
  program's start (`AsWritten`) or a corrected start that also checks
  `ready` (`Corrected`); every other step is the same. In every run the
  observers update wait lists with the intended update (`Process.Prune`);
  the program's in-place update agrees with it on wait lists without a
  repeated name, and is never less strict on the others (see "## Left
  out"). Over all runs of a registered configuration, with either start,
  two things are proved:
  - a service passes its gate only after every service it waits for has
    stopped;
  - the shutdown body runs at most once.

  With the corrected start a third is proved: once the termination flag is
  set, nothing is ready or running and no task starts any more. The
  program's runs break it: a task that is still waiting when shutdown
  happens does start (see "## Findings").
- `Logger` (logger.go) covers prefix composition, `println`, the stream
  prefixes, `std.extractMessage`, the split rule, line emission and the
  `devNull` reader and writer.
- `Utils` (utils.go) is `MatcherLookup`.
- `Regex` is the regexp engine, left uninterpreted. A compiled pattern is a
  matching function that returns capture spans, plus its subexpression names,
  constrained only by what Go's `regexp` package guarantees.
- `Wrappers` and `Seqs` are helpers:
  - `Option` and `Result`;
  - duplicate-freedom, enumerations of a set, subsequences and flattening.

Modelling conventions:

- **Panics.** A panic is an `Err` or a `None`.
- **Map iteration order.** Go's map iteration order is unspecified. Where the
  order matters, the model takes the order as a parameter that must list every
  key exactly once (`Seqs.Enumerates`).
- **Characters.** A character stands for a byte.

The Go files come from different revisions:

- `processor.go` calls `proc.run(ctx)`, `proc.stop()` and `proc.PaddedName`.
- `process.go` defines `run()` without a context, `kill()` rather than
  `stop()`, and `paddedName()` rather than a field.

Stopping a process is therefore an event in the model, recorded in
`Processor.State.stopCalls`.

Three behaviours of this revision of the code are easy to miss. The model
follows the code in each:

- **Partitions are not always disjoint.** A name normally moves ready →
  running → stopped and sits in one partition at a time. The kill-hook
  cascade, however, marks a *ready* process stopped, and `updateStatus` then
  leaves the name in `ready` as well (`Registry.ReadyToStoppedStaysReady`).
- **Cancellation still shuts down.** `handleErrors` leaves
  `context.Canceled` out of the log, but it still runs `shutdown` for it
  (`Processor.HandleErrors`).
- **The license to kill is a list.** The code keeps a list, duplicates
  included, and tests membership by a linear scan
  (`Registry.IsAllowedToBeKilled`).

## Model

| member | source | states |
|---|---|---|
| Observer.Attach | observer.go:19-21 | Attaching adds exactly one observer, at the end. Every earlier observer keeps its position. |
| Observer.Publish | observer.go:23-27 | Publishing on an empty observable leaves the state untouched. |
| Observer.PublishAttach | observer.go:19-27 | Publishing after an attach is publishing to the old list and then notifying the new observer last. |
| Observer.PublishDeliversOnceInOrder | observer.go:23-27 | Each attached observer receives exactly one delivery, in attachment order. Every delivery carries the identical status value. |
| Observer.PublishFuncsInOrder | observer.go:13-27 | Publishing to any list of `observerFunc` observers applies their functions one after another, in attachment order, each to the same status. |
| Regex.FindStringSubmatch | process.go:163 | A submatch list is empty (no match) or has one entry per subexpression. Entry i is the subject's substring under capture i. |
| Utils.MatcherLookup | utils.go:7-15 | The keys are exactly the names at positions 1 and above, so position 0 is never a key. Each name maps to the capture at its last position. The function needs at least as many captures as names; with fewer, the Go code panics on the index. |
| Utils.NamedKeysExactly | utils.go:8-12 | A string is a key iff some position i ≥ 1 carries that name. This includes "" when an unnamed group sits at position 1 or later. |
| Process.GateOpen | process.go:28-32 | `wait()` returns exactly when no name is waited for any more. |
| Process.Prune | process.go:34-43 | This is `update` for a duplicate-free list. A name stays waited-for iff it was waited for and is not stopped. The survivors keep their relative order, and no name is added. |
| Process.Update | process.go:34-43 | The intended `update`: only the wait list changes. A name stays waited-for iff it was waited for and the snapshot does not list it as stopped, and the survivors keep their order. |
| Process.UpdateOpensGate | process.go:28-43 | After an update the gate is open iff every name the process waited for is stopped in the snapshot. |
| Process.PruneTwice | process.go:34-43 | Two updates in a row equal one update with the union of the stopped sets, so repeated snapshots compose. |
| Process.PruneAppend | process.go:34-43 | Each entry is kept or dropped on its own: pruning distributes over concatenation. |
| Process.PruneNothing | process.go:34-43 | A snapshot that stops none of the waited names leaves the list unchanged. |
| Process.PruneRemovesEveryStoppedName | process.go:34-43 | After the update no stopped name is waited for, duplicates included. The survivors are a subsequence of the old list. |
| Process.RangeDelete | process.go:36-40 | Deleting in place while ranging by index keeps the backing array's size and never lengthens the live slice. |
| Process.UpdateInPlace | process.go:34-43 | `update` as written, with the stopped names in snapshot order: when it does not panic, the wait list never grows, and an empty stopped list leaves it as it was. |
| Process.UpdateLoopUnique | process.go:35-42 | For a duplicate-free list and any order of the stopped names, the in-place loop as written yields exactly the pruned list. |
| Process.UpdateInPlaceIsPrune | process.go:34-43 | On a duplicate-free wait list, `update` as written equals `Prune` with the snapshot's stopped set. |
| Process.UpdateInPlacePanicsOnDuplicate | process.go:36-39 | With wait list ["a","a"] and "a" stopped, the second deletion slices past the shortened list, which panics. |
| Process.UpdateInPlaceKeepsDuplicate | process.go:36-39 | With wait list ["a","a","b"] and "a" stopped, the result is ["a","b"]: a stopped name is still waited for. |
| Process.RangeDeleteKeeps | process.go:36-39 | One pass of the range-and-delete loop, repeated names or not, leaves a subsequence of the list from which only copies of the target are gone. |
| Process.UpdateInPlaceSound | process.go:34-43 | When `update` as written does not panic, it keeps the gate invariant: the wait list stays a subsequence of the configured one, and every configured name gone from it is stopped. So its gate opens only once every configured name is stopped. |
| Process.WantedDeadOrDead | process.go:65-67 | The names to kill are the `kill` hooks exactly as configured, order and duplicates kept. |
| Process.SplitSpaces | process.go:56 | Splitting on every single space gives at least one part and no part contains a space. The parts re-joined with single spaces give back the command. The first part is the text before the first space. |
| Process.SplitJoin | process.go:56-57 | Splitting a space-joined list of space-free words returns exactly those words. |
| Process.Prepare | process.go:45-59 | A trim-pattern compile error is returned before any command is built, and only that error is. On success: the program and arguments re-join to the expanded command; the working directory is as `Process.Workdir` says; the trim pattern is absent iff none is configured, and otherwise it is the pattern `regexp.Compile` returned. |
| Process.Workdir | process.go:92-98 | The working directory is `Pwd` when it is set. Otherwise it is the directory composer was started in (`homedir`, which main.go:40 sets from `os.Getwd`). |
| Process.PaddedName | process.go:103-111 | When the name is no longer than the padding, the result has exactly the padding's length and ends with the name. Everything before the name is a space. |
| Process.ExtractMessage | process.go:161-172 | With no pattern the message is returned unchanged. With at most one submatch entry it is "[!] " followed by the message. Otherwise it is the capture of the last group named "message", or "" if no group has that name. |
| Registry.NewRegistry | registry.go:17-24 | A fresh registry knows no process, has no observer, and licenses no name to be killed. |
| Registry.Register | registry.go:26-34 | The process joins `ready` under its name and its `kill` hooks are appended to the license list. Exactly one observer, for this process, is attached last. `running` and `stopped` are unchanged. |
| Registry.Status | registry.go:53-70 | The snapshot lists exactly the names of each partition and the whole license list. |
| Registry.Publish | registry.go:50 | After a transition every observing process's wait list is updated with the same snapshot, through the intended update, and no other record changes. |
| Registry.NotifyAll | registry.go:27 | Fanning a snapshot out updates every observing process exactly as a single update would, even if it is attached twice. Processes that do not observe are left alone. |
| Registry.UpdateIdempotent | process.go:34-43 | Applying the same snapshot twice changes nothing more than applying it once. |
| Registry.PublishEvolves | registry.go:50 | A publish only moves the registry forward. Afterwards no observing process waits for a stopped name. |
| Registry.UpdateStatus | registry.go:36-51 | "running" moves the name from `ready` to `running`; "stopped" takes it out of `running` only and adds it to `stopped`; any other status is the "Unsupported status" panic. A successful call moves the registry forward and leaves no observer waiting for a stopped name. |
| Registry.StoppedNameLeavesWaitLists | registry.go:42-50 | Once a name is marked stopped, no observing process waits for it any more. |
| Registry.TransitionsKeepDisjoint | registry.go:39-44 | Along ready→running and running→stopped, the partitions stay pairwise disjoint. |
| Registry.ReadyToStoppedStaysReady | registry.go:42-44 | Stopping a ready name leaves it in `ready` as well as in `stopped`, so disjointness fails off the ready→running→stopped path. |
| Registry.IsAllowedToBeKilled | registry.go:72-77 | A name may be killed iff it occurs at some position of the license list. |
| Registry.GetProcess | registry.go:79-91 | The label is "ready" iff the name is ready, else "running" iff it is running, else "stopped" iff it is stopped. An unknown name is the "WTF?! Unknown process!" panic. |
| Registry.Processes | registry.go:93-96 | Every name of every partition is listed. When the partitions are disjoint, each name is listed once. |
| Registry.ShutdownRegistry | registry.go:98-110 | `ready` becomes empty and nothing else changes. Exactly the running processes are sent `stop`. |
| Registry.RegisterAllPartitions | registry.go:26-34 | After registering a configuration, `ready` holds exactly the configured names, and `running` and `stopped` are empty. The observers are the services in registration order. |
| Registry.RegisterAllLicense | registry.go:33 | The license list is the concatenation of all the `kill` lists, in registration order. |
| Registry.RegisterAllProcs | registry.go:32 | The table holds exactly the configured names. Each is stored under its own name, with the wait list of the last service configured under that name. |
| Registry.LicenseToKillIsKillHooks | registry.go:72-77 | A name may be killed iff it appears in some configured `kill` list. |
| Registry.RegisteredGateSound | registry.go:26-34 | Right after registration, every process's wait list is a subsequence of its configured one, and every configured name it no longer waits for is stopped. |
| Registry.GateSoundEvolves | process.go:28-43 | That gate invariant survives every forward move of the registry. |
| Processor.Perform | processor.go:19-43 | `perform` starts one task for each process that is ready at that moment. Nothing is terminated or shut down yet: no `Done` channel is closed, no error, kill list or stop call is queued, and the handler has neither finished nor logged anything. |
| Processor.Stop | processor.go:111-114 | One stop call is recorded. The name leaves `running` and joins `stopped`, `ready` is untouched, and the registry moves forward. |
| Processor.StopEach | processor.go:102-108 | Stopping a list records exactly that list of stop calls. All the listed names leave `running` and join `stopped`. |
| Processor.StopGivenName | processor.go:76-87 | One pass of the cascade loop succeeds iff the name is known. A ready or running name leaves `running` and joins `stopped`, and only a running name that is not ready gets a stop call. |
| Processor.TaskStartAsWritten | processor.go:33-34 | As written, a waiting task starts iff its wait list is empty, whatever `ready` holds. It then moves from `ready` to `running`, and nothing else changes. |
| Processor.TaskStart | processor.go:33-34 | The corrected start also requires the name to be in `ready`, which `registry.shutdown` empties so that ready processes do not start (registry.go:102-105). When it starts, it does exactly what the start as written does. |
| Processor.TaskReturn | processor.go:35-38 | The run error is queued iff it is non-nil, the process does not ignore errors, and the name is not on the license list. Nothing else changes. |
| Processor.TaskClose | processor.go:39-40 | Closing `Done` panics iff it is already closed. Otherwise the name leaves `running` and joins `stopped`, `ready` is untouched, and no channel changes. |
| Processor.TaskSendKills | processor.go:41 | The process's kill list is queued for the terminator, whether or not its error was forwarded, and the task ends. |
| Processor.TerminatorStep | processor.go:69-73 | The terminator either receives the next kill list or stops the next name of the current one, consuming the pending names in order. Receiving takes the first queued list as the current one and changes nothing else. Stopping panics iff that name is unknown. Only the registry and the stop calls change. |
| Processor.Terminator | processor.go:69-73 | Draining the terminator name by name gives the same result as one `stopAllGivenNames` over all pending names in order: the same registry, the same stop calls, and a panic exactly when one of them is unknown. |
| Processor.TerminatorStepCascades | processor.go:69-88 | The cascade over the names pending after one terminator step completes the step into the cascade over the names pending before it. |
| Processor.StopAllGivenNames | processor.go:75-88 | The call succeeds iff every name is known; an unknown one panics. `ready` is untouched; the listed names leave `running` and join `stopped`. The new stop calls list exactly once each listed name that was running but not ready: a ready name gets no stop call, a stopped one is left alone. No channel or task changes. |
| Processor.Shutdown | processor.go:90-109 | Once the termination flag is set, a call changes nothing. The first call sets the flag, counts one shutdown, and empties `ready` and `running`. Every process that was ready or running ends up stopped, each with exactly one stop call: the ready ones first, then the running ones. |
| Processor.ShutdownBody | processor.go:98-109 | The body stops the ready processes, then the running ones, in the order the two loops visit them, then defers to the registry. Afterwards nothing is ready or running, and the channels are untouched. |
| Processor.HandleErrors | processor.go:48-67 | Nil errors, and every error after the first, leave everything alone. The first non-nil error triggers `shutdown`, and it is logged unless it is `context.Canceled`. |
| Processor.HandleErrorsOnce | processor.go:48-67 | Whatever stream the handler receives, it shuts down at most once and logs at most one error. It shuts down iff the stream holds a non-nil error. |
| Processor.ReceiveOne | processor.go:51-66 | The handler receives one error. A nil error, or any error after the first non-nil one, changes nothing else. The first non-nil error is logged unless it is `context.Canceled`, and it runs `shutdown` unless the flag is already set. |
| Processor.Apply | processor.go:19-73 | Every step of every goroutine, with either start, only moves the registry forward, and the shutdown count grows by one exactly when the termination flag becomes set. With the corrected start, a step keeps "the flag implies nothing is ready or running". |
| Processor.ExecuteEvolves | processor.go:19-46 | Over any interleaving of steps, with either start, the registry only moves forward. |
| Processor.ExecuteShutsDownOnce | processor.go:90-99 | Over any interleaving, with either start, the shutdown body has run at most once, and only if the flag is set. |
| Processor.ExecuteSettled | processor.go:90-109 | Over any interleaving of runs with the corrected start, once the flag is set nothing is ready or running. |
| Processor.StartsOnlyAfterPrerequisitesStop | processor.go:33-34 | In every run of a registered configuration, with either start, the program's start lets a task pass its gate only when every service in its configured wait list is stopped. The observers use the intended update; `Process.UpdateInPlaceSound` carries the gate over to the program's update. |
| Processor.ShutdownAtMostOnce | processor.go:90-109 | In every run of a registered configuration, with either start, the guarded body of `processor.shutdown` (the "Gracefully shutdown composer" log line and what follows) runs at most once. |
| Processor.NothingStartsAfterShutdown | registry.go:102-105 | In every run of a registered configuration with the corrected start, once the termination flag is set nothing is ready or running and no task can start. |
| Processor.WaitingTaskStartsAfterShutdown | processor.go:33-34 | As written, when the first error reaches the handler while a ready task still waits, shutdown opens that task's gate: afterwards the start as written launches it into `running` with the flag set, where the corrected start refuses. |
| Processor.AsWrittenRunUnsettles | processor.go:33-34 | The same as a two-step run of the program, the handler's step and then the waiting task's start: "the flag implies nothing is ready or running" holds before it and fails after it, with the task running. |
| Processor.WaitingTaskStartsAfterShutdownExample | processor.go:33-34 | With services c and b, where b waits for c, c starts and fails; after the handler shuts down, the start as written launches b. |
| Processor.ShutdownOpensGates | processor.go:90-109 | A shutdown that finds something ready or running marks every known name stopped, so an observing process whose wait list names only known processes has its gate open afterwards. |
| Processor.GetPadding | processor.go:116-124 | The padding is at least the length of every process name and equals one of them. It is 0 when there is no process. It equals `MaxLen`, the longest name length defined without the loop. |
| Processor.MaxLenBounds | processor.go:116-124 | `MaxLen` bounds the length of every name in the multiset, and a non-empty multiset has a name of exactly that length. |
| Processor.FormatPadded | processor.go:23-27 | A name shorter than the width is right-aligned to exactly the width, with spaces on the left. A longer name is left whole. |
| Processor.PaddedNamesAligned | processor.go:23-27 | With the padding `getPadding` computes, every process's padded name has exactly that width and ends with the name. |
| Logger.WithPrefixName | logger.go:33-43 | The derived logger writes to the same writer. Its prefix is the old prefix followed by the name and ": ", or just the name and ": " when the old prefix is empty. |
| Logger.WithPrefixNameNests | logger.go:33-43 | Deriving loggers name after name keeps the writer. The prefix is the old one followed by every name, outermost first, each closed by ": ". |
| Logger.SprintPair | logger.go:64 | Two operands are separated by a space only when neither is a string. |
| Logger.Sprint | logger.go:64 | String operands are written one after another with no separator, and a single operand is written as its text. |
| Logger.Header | logger.go:60-61 | A line opens with color, prefix and reset only when the prefix is non-empty; otherwise it opens with nothing. |
| Logger.Println | logger.go:57-68 | The intended line ends with a newline. With a prefix it is color + prefix + reset, then the operands as `fmt.Fprint` formats them, then the newline. Without a prefix it is just the text and the newline. |
| Logger.PrintlnAsWritten | logger.go:57-68 | The line as written opens with `len(prefix) + len(args)` NUL bytes and still ends with a newline. |
| Logger.PrintlnSeedsZeros | logger.go:58 | The line as written is `len(prefix) + len(args)` NUL bytes followed by the intended line. |
| Logger.PrintlnZerosExample | logger.go:58 | With prefix "web: ", `Info("up")` writes a NUL byte first where the escape code was meant to be. |
| Logger.LevelColor | logger.go:45-55 | Info is cyan, Warn is yellow, Error is red. |
| Logger.Log | logger.go:45-55 | `Info`, `Warn` and `Error` write the level's color, the prefix, reset, then the text and a newline; without a prefix just the text and the newline. |
| Logger.LevelsDifferOnlyInColor | logger.go:45-61 | With a prefix the three levels give three distinct lines. Without one they give the same line. |
| Logger.StreamColor | logger.go:70-76 | Stdout uses the Info color (cyan) and Stderr the Warn color (yellow). |
| Logger.Writer | logger.go:78-86 | The stream prefix is empty iff the logger prefix is, and otherwise it is color + prefix + reset. It is exactly the header the logger's own lines carry. No trim pattern is set. |
| Logger.Extract | logger.go:117-134 | The intended extraction: with no pattern, or fewer than two submatch entries, the message is unchanged. Otherwise it is captures 1..n concatenated in order. |
| Logger.AppendCapture | logger.go:130 | An append that fits in the array writes the capture right after the bytes written so far and leaves the rest of the array alone. One that does not fit copies what was written into a fresh slice and appends there. An append to a fresh slice just extends it. The array never changes size. |
| Logger.AppendAllAgrees | logger.go:128-131 | If each capture starts at or after everything written before it, the in-place loop yields the original captures, concatenated. |
| Logger.ExtractInPlace | logger.go:117-134 | `extractMessage` as written returns the message unchanged when no pattern is set or the match has fewer than two entries. |
| Logger.ExtractInPlaceInOrder | logger.go:117-134 | When the groups come one after another, the extraction as written equals the intended one, whatever the spare capacity. |
| Logger.ExtractInPlaceClobbers | logger.go:128-131 | With `((ab)c)(d)` on "abcd" and two spare bytes, the extraction as written gives "abcaba" where "abcabd" is intended. |
| Logger.ScanLines | logger.go:149 | With a newline in the data, the token is the text before the first newline, with one trailing "\r" dropped, and the newline is consumed. At end of input the rest is one token, likewise without its trailing "\r". Without a newline and before the end, more data is requested. |
| Logger.SplitChunk | logger.go:143-150 | With at least `chunkSize` bytes buffered, the token is exactly the first `chunkSize` bytes; otherwise line splitting applies. No token exceeds `chunkSize`. A negative `chunkSize` panics. |
| Logger.LinesFitTheBuffer | logger.go:140-165 | With no trim pattern, every line the scan loop emits for a split token is at most `MaxScanTokenSize` bytes before its newline, prefix included. |
| Logger.ChunkMayHoldSeveralLines | logger.go:145-149 | Because the chunk rule is tried first, a chunk can contain newlines where line splitting would have cut. |
| Logger.TrimRight | logger.go:157 | The result is the longest prefix that does not end in "\r" or "\n". Everything cut off is "\r" and "\n". |
| Logger.EmitLine | logger.go:156-165 | An emitted line is the stream prefix, then the message, then one newline. The message is the token with its line ending trimmed, put through the extraction; without a trim pattern it is just the trimmed token. |
| Logger.EmitLineEndsOnce | logger.go:157-162 | A line emitted through a logger's writer ends in exactly one newline, with no "\r" or "\n" before it. |
| Logger.DevNullRead | logger.go:188-190 | Reading yields no bytes and reports the end of input. |
| Logger.DevNullWrite | logger.go:192-194 | Writing accepts every byte without error. |
| Logger.DevNullClose | logger.go:196-198 | Closing always succeeds. |

## Left out

- Concurrency is not modelled: goroutines, channels, `sync.WaitGroup`, the mutexes and the one-second polling loop in `wait`. Runs are sequential interleavings of steps, and a task blocked in `wait` is a step that is not enabled. Channel blocking and deadlock are outside the model.
- Process execution is not modelled: `exec.Cmd`, the child's exit, `kill`/`stop`, `logStreams` and the pipes. The run's outcome is the `err` argument of a `Return` step. A stop is an event in `stopCalls`; the registry's `process.stop()` calls are returned as a set of names.
- `os.ExpandEnv` is a function parameter of `Prepare`. `setEnvironment` (`os.Setenv`) and `runtime.SetFinalizer` are not modelled: they are environment and memory-management I/O.
- The regexp engine is uninterpreted (see `Regex`).
- Registry.Publish: the observers apply the intended update (`Process.Update`, which prunes with `Process.Prune`), not the program's in-place update (`Process.UpdateInPlace`). The two agree on wait lists without a repeated name (`Process.UpdateInPlaceIsPrune`). With a repeated name the program can panic inside `publish` (`Process.UpdateInPlacePanicsOnDuplicate`), and that panic is not a step of the runs. It can also keep a stopped name waited-for until a later publish (`Process.UpdateInPlaceKeepsDuplicate`). Either way it never drops a name that is not stopped. `Process.UpdateInPlaceSound` proves that each of the program's updates keeps the invariant the gate proof rests on (`Registry.GateSound`): the wait list stays a subsequence of the configured one, and every name that left it is stopped. The program's gate therefore opens no earlier than the model's. The run theorems themselves are stated over the intended update, and they say nothing about whether the program's gate opens at all.
- The log calls inside the processor are not modelled: the `Warn` per cascaded name, the shutdown `Info`, and the `%s ; %#v` formatting in `handleErrors`. Only which errors are logged is modelled, as `errorLog`.
- `registry.status` builds its lists in map order. The snapshot holds sets instead, because its only reader, `update`, tests membership.
- Registry.Processes: a multiset of names rather than a slice of process pointers, because the order is map order and `getPadding` only reads the names.
- Registry.GetProcess: returns the label only. The process record is `procs[name]`, and the record registered under a name is assumed to carry that name.
- Processor.Apply: each step is one atomic action of one goroutine. Its `Start` step is the program's start in `AsWritten` runs and the corrected one in `Corrected` runs. A step that panics (closing `Done` twice, an unknown name in a kill list) is not taken; the program would stop there, with the effects of the earlier steps, including the earlier names of a cascade, already made. Three things are coarser than in Go: the shutdown body is one step; an `updateStatus` change and its publish are one step; and the error and terminate channels are queues whose sends never block, since cli.go:35-36 buffers each for one entry per process.
- The interrupt handler in cli.go:43-50 is not modelled. It logs the same shutdown line, sets the termination flag without taking the mutex, and stops every process outside the guard, so `Processor.ShutdownAtMostOnce` covers only the guarded body of `processor.shutdown`.
- Logger.SplitChunk: what data the split rule sees depends on how the scanner's reads happen to fall. The rule is modelled per call, not over a whole stream. The scanner's "too many empty tokens" panic for a zero `chunkSize` and its error path (logger.go:167-170) are not modelled.
- `std.trim` is never set in this revision. `Logger.Std` keeps it as a field so that the extraction can be stated.
- Utils.MatcherLookup: requires at least as many captures as names, where Go would panic on the index. Its only caller (process.go:163-165) passes a successful match, which always has one capture per name.
- Processor.TaskStartAsWritten, Processor.TaskStart, Processor.TaskReturn, Processor.TaskClose, Processor.TaskSendKills: require a registered name and a task at that point of its goroutine. The Go tasks exist only for registered processes, and each task runs its statements in order.
- Process.PaddedName: requires the name to be no longer than the padding. In Go a longer name makes the loop run forever, and a non-terminating loop has no value to model.
- Processor.FormatPadded: `fmt` measures the width in runes, while the model counts characters as bytes. The two agree on ASCII names.
- cli.go, main.go, profiler.go, watcher.go and build.go are not part of this model: they are configuration I/O, CLI wiring, an HTTP profiler, a file watcher and version strings.

## Findings

| source | as written | input that shows it | evidently intended | confidence | as-written member | corrected member |
|---|---|---|---|---|---|---|
| process.go:36-39 | deletes from `Hooks["wait"]` by index while ranging over the original slice | wait ["a","a"] with "a" stopped panics on the slice bound; ["a","a","b"] leaves ["a","b"] | every stopped name is removed, order kept | not executed; high | Process.UpdateInPlace (exhibited by Process.UpdateInPlacePanicsOnDuplicate, Process.UpdateInPlaceKeepsDuplicate) | Process.Prune |
| logger.go:58 | `bytes.NewBuffer(make([]byte, n))` seeds the buffer with n zero bytes | `Info("up")` with prefix "web: " writes six NUL bytes before the color code | `make([]byte, 0, n)`: capacity only | not executed; high | Logger.PrintlnAsWritten (exhibited by Logger.PrintlnSeedsZeros, Logger.PrintlnZerosExample) | Logger.Println |
| processor.go:33-34 | a task that passes `wait()` calls `updateStatus(running)` without checking that the registry still has it in `ready` | services c and b, b waiting for c: c starts and fails, the handler shuts down, which marks c stopped and opens b's gate, and b then starts and stays running after shutdown | a process that shutdown took out of `ready` does not start (registry.go:102-105) | not executed; high | Processor.TaskStartAsWritten (exhibited by Processor.WaitingTaskStartsAfterShutdown, Processor.WaitingTaskStartsAfterShutdownExample) | Processor.TaskStart, which `Corrected` runs use (proved: Processor.NothingStartsAfterShutdown; the program's runs: Processor.AsWrittenRunUnsettles) |
| logger.go:128-131 | `m := msg[:0]` appends the captures into the array that the captures still point into | pattern `((ab)c)(d)` on "abcd" with spare capacity gives "abcaba" | "abcabd", the captures concatenated | not executed; medium, since `trim` is never set in this revision | Logger.ExtractInPlace (exhibited by Logger.ExtractInPlaceClobbers) | Logger.Extract |

=== FILE: logger.dfy ===
/** logger.go: prefixed, colored log lines, and the writer that turns a
    child process's output stream into such lines. Characters stand for
    bytes; the writer `w` is left abstract. */
module Logger {
  import opened Wrappers
  import opened Seqs
  import opened Regex

  // ANSI colors
  const Reset: string := "\U{1B}[0m"
  const Red: string := "\U{1B}[31m"
  const Yellow: string := "\U{1B}[33m"
  const Cyan: string := "\U{1B}[36m"

  /** `bufio.MaxScanTokenSize`. */
  const MaxScanTokenSize: nat := 65536

  datatype Logger<W> = Logger(w: W, prefix: string)

  /** `WithPrefixName`: the same writer, with `name + ": "` appended to the
      prefix. */
  function WithPrefixName<W>(l: Logger<W>, name: string): (r: Logger<W>)
    ensures r.w == l.w
    ensures r.prefix == l.prefix + name + ": "
  {
    var named := name + ": ";
    Logger(l.w, if l.prefix != "" then l.prefix + named else named)
  }

  /** `WithPrefixName` applied once per name, outermost first. */
  function WithPrefixNames<W>(l: Logger<W>, names: seq<string>): Logger<W>
    decreases |names|
  {
    if names == [] then l else WithPrefixName(WithPrefixNames(l, names[..|names| - 1]), names[|names| - 1])
  }

  /** Each name closed by ": ", in order. */
  function Labels(names: seq<string>): seq<string> {
    seq(|names|, i requires 0 <= i < |names| => names[i] + ": ")
  }

  /** However deeply loggers are derived, the writer stays the same and the
      names read outermost first, each closed by ": ". */
  lemma {:induction false} WithPrefixNameNests<W>(l: Logger<W>, names: seq<string>)
    ensures WithPrefixNames(l, names).w == l.w
    ensures WithPrefixNames(l, names).prefix == l.prefix + Flatten(Labels(names))
    decreases |names|
  {
    if names != [] {
      var init := names[..|names| - 1];
      var last := names[|names| - 1];
      WithPrefixNameNests(l, init);
      assert Labels(names) == Labels(init) + [last + ": "];
      FlattenAppend(Labels(init), last + ": ");
    }
  }

  // Messages
  // --------

  /** An operand of `fmt.Fprint`, already rendered: a Go string, or any other
      value. */
  datatype Arg = Str(text: string) | Value(text: string)

  /** `fmt.Fprint(args...)`: the operands in order, with a space between two
      adjacent operands when neither is a string. */
  function Sprint(args: seq<Arg>): (r: string)
    ensures (forall k :: 0 <= k < |args| ==> args[k].Str?) ==> r == Flatten(Texts(args))
    ensures |args| == 1 ==> r == args[0].text
    decreases |args|
  {
    if |args| == 0 then ""
    else if |args| == 1 then args[0].text
    else
      var last := |args| - 1;
      var gap := if args[last - 1].Value? && args[last].Value? then " " else "";
      assert Texts(args) == Texts(args[..last]) + [args[last].text];
      FlattenAppend(Texts(args[..last]), args[last].text);
      Sprint(args[..last]) + gap + args[last].text
  }

  /** The rendered operands, in order. */
  function Texts(args: seq<Arg>): seq<string> {
    seq(|args|, k requires 0 <= k < |args| => args[k].text)
  }

  /** Strings are never separated; two non-strings are, by one space. */
  lemma SprintPair(a: Arg, b: Arg)
    ensures Sprint([a, b]) == a.text + (if a.Value? && b.Value? then " " else "") + b.text
  {
    assert [a, b][..1] == [a];
  }

  /** The colored prefix that opens a line: nothing when the prefix is
      empty. */
  function Header<W>(l: Logger<W>, c: string): (h: string)
    ensures l.prefix == "" ==> h == ""
    ensures l.prefix != "" ==> h == c + l.prefix + Reset
  {
    if l.prefix != "" then c + l.prefix + Reset else ""
  }

  /** `println` as written: the buffer starts out holding
      `len(prefix) + len(args)` zero bytes, since `bytes.NewBuffer` takes the
      zero-filled slice as initial content; then come the header, the text
      and a newline. */
  function PrintlnAsWritten<W>(l: Logger<W>, c: string, args: seq<Arg>): (out: string)
    ensures |out| > |l.prefix| + |args| && out[|out| - 1] == '\n'
    ensures forall i :: 0 <= i < |l.prefix| + |args| ==> out[i] == 0 as char
  {
    seq(|l.prefix| + |args|, _ => 0 as char) + Header(l, c) + Sprint(args) + "\n"
  }

  /** `println` as intended: header, text, newline. */
  function Println<W>(l: Logger<W>, c: string, args: seq<Arg>): (out: string)
    ensures |out| >= 1 && out[|out| - 1] == '\n'
    ensures l.prefix != "" ==>
      && |out| > |c| + |l.prefix| + |Reset|
      && out[..|c| + |l.prefix| + |Reset|] == c + l.prefix + Reset
      && out[|c| + |l.prefix| + |Reset|..] == Sprint(args) + "\n"
    ensures l.prefix == "" ==> out == Sprint(args) + "\n"
  {
    var h := Header(l, c);
    var out := h + Sprint(args) + "\n";
    assert out[..|h|] == h;
    assert out[|h|..] == Sprint(args) + "\n";
    out
  }

  /** The written line is the intended one behind `len(prefix) + len(args)`
      zero bytes; so a line with a prefix or an operand does not start with
      its color code but with NUL. */
  lemma PrintlnSeedsZeros<W>(l: Logger<W>, c: string, args: seq<Arg>)
    ensures var out := PrintlnAsWritten(l, c, args);
      && |out| == |l.prefix| + |args| + |Println(l, c, args)|
      && out[|l.prefix| + |args|..] == Println(l, c, args)
      && forall i :: 0 <= i < |l.prefix| + |args| ==> out[i] == 0 as char
  {
    var zeros := seq(|l.prefix| + |args|, _ => 0 as char);
    var line := Header(l, c) + Sprint(args) + "\n";
    assert Println(l, c, args) == line;
    assert PrintlnAsWritten(l, c, args) == zeros + line;
    assert (zeros + line)[|zeros|..] == line;
  }

  /** A concrete line: `Info("up")` on a logger named "web" writes six NUL
      bytes before the color code. */
  lemma PrintlnZerosExample<W>(w: W)
    ensures PrintlnAsWritten(Logger(w, "web: "), Cyan, [Str("up")])[0] == 0 as char
    ensures Println(Logger(w, "web: "), Cyan, [Str("up")])[0] == '\U{1B}'
  {
    PrintlnSeedsZeros(Logger(w, "web: "), Cyan, [Str("up")]);
  }

  datatype Level = Info | Warn | Error

  /** Info is cyan, Warn yellow, Error red. */
  function LevelColor(lv: Level): (c: string)
    ensures lv == Info ==> c == Cyan
    ensures lv == Warn ==> c == Yellow
    ensures lv == Error ==> c == Red
  {
    match lv
    case Info => Cyan
    case Warn => Yellow
    case Error => Red
  }

  /** `Info`, `Warn`, `Error`. */
  function Log<W>(l: Logger<W>, lv: Level, args: seq<Arg>): (out: string)
    ensures |out| >= 1 && out[|out| - 1] == '\n'
    ensures l.prefix != "" ==>
      && |out| > |LevelColor(lv)| + |l.prefix| + |Reset|
      && out[..|LevelColor(lv)|] == LevelColor(lv)
      && out[|LevelColor(lv)|..|LevelColor(lv)| + |l.prefix|] == l.prefix
      && out[|LevelColor(lv)| + |l.prefix|..|LevelColor(lv)| + |l.prefix| + |Reset|] == Reset
      && out[|LevelColor(lv)| + |l.prefix| + |Reset|..] == Sprint(args) + "\n"
    ensures l.prefix == "" ==> out == Sprint(args) + "\n"
  {
    PrintlnLayout(l, LevelColor(lv), args);
    Println(l, LevelColor(lv), args)
  }

  /** A prefixed line has the color, then the prefix, then reset at its head. */
  lemma PrintlnLayout<W>(l: Logger<W>, c: string, args: seq<Arg>)
    ensures l.prefix != "" ==>
      var out := Println(l, c, args);
      && out[..|c|] == c
      && out[|c|..|c| + |l.prefix|] == l.prefix
      && out[|c| + |l.prefix|..|c| + |l.prefix| + |Reset|] == Reset
  {
    if l.prefix != "" {
      var out := Println(l, c, args);
      var h := c + l.prefix + Reset;
      assert |h| == |c| + |l.prefix| + |Reset|;
      assert out[..|c|] == out[..|h|][..|c|];
      assert out[|c|..|c| + |l.prefix|] == out[..|h|][|c|..|c| + |l.prefix|];
      assert out[|c| + |l.prefix|..|h|] == out[..|h|][|c| + |l.prefix|..];
    }
  }

  /** The three levels differ only in color: with a prefix the lines are
      told apart by it, without one they are identical. */
  lemma LevelsDifferOnlyInColor<W>(l: Logger<W>, args: seq<Arg>)
    ensures l.prefix == "" ==> Log(l, Info, args) == Log(l, Warn, args) == Log(l, Error, args)
    ensures l.prefix != "" ==>
      && Log(l, Info, args) != Log(l, Warn, args)
      && Log(l, Warn, args) != Log(l, Error, args)
      && Log(l, Info, args) != Log(l, Error, args)
  {
    if l.prefix != "" {
      var n := |Cyan|;
      assert |Yellow| == n && |Red| == n;
      assert Log(l, Info, args)[..n] == Cyan;
      assert Log(l, Warn, args)[..n] == Yellow;
      assert Log(l, Error, args)[..n] == Red;
    }
  }

  // Process streams
  // ---------------

  /** The writer a process's output goes to, as `newStd` builds it: no trim
      pattern is ever set. */
  datatype Std<W> = Std(w: W, prefix: string, trim: Option<Regexp>)

  datatype Stream = Stdout | Stderr

  /** `Stdout` is cyan and `Stderr` yellow, as the Info and Warn levels. */
  function StreamColor(st: Stream): (c: string)
    ensures st == Stdout ==> c == LevelColor(Info)
    ensures st == Stderr ==> c == LevelColor(Warn)
  {
    match st
    case Stdout => Cyan
    case Stderr => Yellow
  }

  /** `writer`: the stream's lines carry exactly the header the logger's own
      lines carry at the same color. */
  function Writer<W>(l: Logger<W>, st: Stream): (s: Std<W>)
    ensures s.w == l.w && s.trim.None?
    ensures s.prefix == "" <==> l.prefix == ""
    ensures l.prefix != "" ==> s.prefix == StreamColor(st) + l.prefix + Reset
    ensures s.prefix == Header(l, StreamColor(st))
  {
    Std(l.w, Header(l, StreamColor(st)), None)
  }

  // Message extraction
  // ------------------

  /** The bytes of `b` under each span, concatenated in order. */
  function Captured(b: string, spans: seq<Span>): string
    requires forall k :: 0 <= k < |spans| ==> spans[k].lo <= spans[k].hi <= |b|
    decreases |spans|
  {
    if spans == [] then [] else b[spans[0].lo..spans[0].hi] + Captured(b, spans[1..])
  }

  /** `std.extractMessage` as intended: the identity without a pattern or
      without at least one group in the match; otherwise captures 1..n
      concatenated. */
  function Extract(trim: Option<Regexp>, msg: string): (r: string)
    ensures trim.None? ==> r == msg
    ensures trim.Some? && |FindStringSubmatch(trim.value, msg)| < 2 ==> r == msg
    ensures trim.Some? && |FindStringSubmatch(trim.value, msg)| >= 2 ==>
      r == Flatten(FindStringSubmatch(trim.value, msg)[1..])
  {
    if trim.None? then msg
    else
      var spans := trim.value.find(msg);
      assert ValidMatch(spans, msg, |trim.value.names|);
      if |spans| < 2 then msg
      else
        CapturedIsFlatten(msg, spans[1..], FindStringSubmatch(trim.value, msg)[1..]);
        Captured(msg, spans[1..])
  }

  lemma {:induction false} CapturedIsFlatten(b: string, spans: seq<Span>, strs: seq<string>)
    requires forall k :: 0 <= k < |spans| ==> spans[k].lo <= spans[k].hi <= |b|
    requires |strs| == |spans| && forall k :: 0 <= k < |spans| ==> strs[k] == b[spans[k].lo..spans[k].hi]
    ensures Captured(b, spans) == Flatten(strs)
    decreases |spans|
  {
    if spans != [] {
      CapturedIsFlatten(b, spans[1..], strs[1..]);
    }
  }

  /** Where `m := msg[:0]` writes while captures are appended: still into
      the array the message lives in (`Aliased`, holding `n` bytes), or, once
      an append outgrew its capacity, into a fresh array. */
  datatype Target = Aliased(n: nat) | Fresh(bytes: string)

  /** One `append(m, p...)`. `arr` is the message's backing array from the
      message's first byte to the end of its capacity. */
  function AppendCapture(arr: string, m: Target, p: string): (res: (string, Target))
    requires m.Aliased? ==> m.n <= |arr|
    ensures |res.0| == |arr|
    ensures res.1.Aliased? ==> res.1.n <= |arr|
    ensures m.Aliased? && m.n + |p| <= |arr| ==>
      && res.1 == Aliased(m.n + |p|)
      && res.0[..m.n + |p|] == arr[..m.n] + p
      && res.0[m.n + |p|..] == arr[m.n + |p|..]
    ensures m.Aliased? && m.n + |p| > |arr| ==> res == (arr, Fresh(arr[..m.n] + p))
    ensures m.Fresh? ==> res == (arr, Fresh(m.bytes + p))
  {
    match m
    case Aliased(n) =>
      if n + |p| <= |arr| then
        var arr' := arr[..n] + p + arr[n + |p|..];
        assert arr'[..n + |p|] == arr[..n] + p && arr'[n + |p|..] == arr[n + |p|..];
        (arr', Aliased(n + |p|))
      else (arr, Fresh(arr[..n] + p))
    case Fresh(f) => (arr, Fresh(f + p))
  }

  /** The loop over `match[1:]`; each capture is read from the array as it
      stands when its turn comes. */
  function AppendAll(arr: string, m: Target, spans: seq<Span>): string
    requires m.Aliased? ==> m.n <= |arr|
    requires forall k :: 0 <= k < |spans| ==> spans[k].lo <= spans[k].hi <= |arr|
    decreases |spans|
  {
    if spans == [] then (match m case Aliased(n) => arr[..n] case Fresh(f) => f)
    else
      var next := AppendCapture(arr, m, arr[spans[0].lo..spans[0].hi]);
      AppendAll(next.0, next.1, spans[1..])
  }

  /** `std.extractMessage` as written, on a message of `len` bytes at the
      front of the array `arr`: the captures are slices of the message, and
      they are appended into the message's own array. */
  function ExtractInPlace(trim: Option<Regexp>, arr: string, len: nat): (r: string)
    requires len <= |arr|
    ensures trim.None? ==> r == arr[..len]
    ensures trim.Some? && |FindStringSubmatch(trim.value, arr[..len])| < 2 ==> r == arr[..len]
  {
    var msg := arr[..len];
    if trim.None? then msg
    else
      var spans := trim.value.find(msg);
      assert ValidMatch(spans, msg, |trim.value.names|);
      if |spans| < 2 then msg else AppendAll(arr, Aliased(0), spans[1..])
  }

  /** Total length of the spans. */
  function Width(spans: seq<Span>): int
    decreases |spans|
  {
    if spans == [] then 0 else spans[0].hi - spans[0].lo + Width(spans[1..])
  }

  /** No capture starts before everything captured ahead of it fits: what
      groups in sequence, neither nested nor overlapping, give. */
  predicate InOrder(spans: seq<Span>) {
    forall k :: 0 <= k < |spans| ==> Width(spans[..k]) <= spans[k].lo
  }

  /** While the aliased writes stay behind every capture still to be read,
      the in-place loop produces exactly the concatenation of the original
      captures. */
  lemma {:induction false} AppendAllAgrees(orig: string, arr: string, n: nat, spans: seq<Span>)
    requires |arr| == |orig| && n <= |arr|
    requires arr[n..] == orig[n..]
    requires forall k :: 0 <= k < |spans| ==> spans[k].lo <= spans[k].hi <= |arr|
    requires forall k :: 0 <= k < |spans| ==> n + Width(spans[..k]) <= spans[k].lo
    ensures AppendAll(arr, Aliased(n), spans) == arr[..n] + Captured(orig, spans)
    decreases |spans|
  {
    if spans != [] {
      var s0 := spans[0];
      assert spans[..0] == [];
      ReadAhead(orig, arr, n, s0.lo, s0.hi);
      var p := arr[s0.lo..s0.hi];
      var rest := spans[1..];
      OrderShifts(spans, n);
      assert Captured(orig, spans) == p + Captured(orig, rest);
      assert n + |p| <= |arr|;
      var arr' := arr[..n] + p + arr[n + |p|..];
      assert AppendCapture(arr, Aliased(n), p) == (arr', Aliased(n + |p|));
      assert AppendAll(arr, Aliased(n), spans) == AppendAll(arr', Aliased(n + |p|), rest);
      WriteBehind(orig, arr, n, p);
      assert forall k :: 0 <= k < |rest| ==> rest[k].lo <= rest[k].hi <= |arr'|;
      AppendAllAgrees(orig, arr', n + |p|, rest);
      assert arr[..n] + p + Captured(orig, rest) == arr[..n] + (p + Captured(orig, rest));
    }
  }

  /** A capture at or after the write position reads the original bytes. */
  lemma ReadAhead(orig: string, arr: string, n: nat, lo: nat, hi: nat)
    requires |arr| == |orig| && n <= lo <= hi <= |arr|
    requires arr[n..] == orig[n..]
    ensures arr[lo..hi] == orig[lo..hi]
  {
    forall i | lo <= i < hi
      ensures arr[i] == orig[i]
    {
      assert arr[i] == arr[n..][i - n] && orig[i] == orig[n..][i - n];
    }
  }

  /** An aliased append leaves the bytes beyond it as they were. */
  lemma WriteBehind(orig: string, arr: string, n: nat, p: string)
    requires |arr| == |orig| && n + |p| <= |arr|
    requires arr[n..] == orig[n..]
    ensures var arr' := arr[..n] + p + arr[n + |p|..];
      && |arr'| == |arr|
      && arr'[n + |p|..] == orig[n + |p|..]
      && arr'[..n + |p|] == arr[..n] + p
  {
    var arr' := arr[..n] + p + arr[n + |p|..];
    assert arr'[n + |p|..] == arr[n + |p|..];
    assert arr[n + |p|..] == arr[n..][|p|..];
    assert orig[n + |p|..] == orig[n..][|p|..];
  }

  /** After the first capture is written, the order condition holds for the
      rest from the new write position. */
  lemma OrderShifts(spans: seq<Span>, n: nat)
    requires spans != []
    requires forall k :: 0 <= k < |spans| ==> n + Width(spans[..k]) <= spans[k].lo
    ensures forall k :: 0 <= k < |spans| - 1 ==>
      n + (spans[0].hi - spans[0].lo) + Width(spans[1..][..k]) <= spans[1..][k].lo
  {
    forall k | 0 <= k < |spans| - 1
      ensures n + (spans[0].hi - spans[0].lo) + Width(spans[1..][..k]) <= spans[1..][k].lo
    {
      assert spans[..k + 1][1..] == spans[1..][..k];
      assert spans[k + 1] == spans[1..][k];
      assert n + Width(spans[..k + 1]) <= spans[k + 1].lo;
    }
  }

  /** When the groups are in sequence the in-place extraction is the
      intended one, whatever the spare capacity. */
  lemma ExtractInPlaceInOrder(trim: Option<Regexp>, arr: string, len: nat)
    requires len <= |arr|
    requires trim.Some? && |trim.value.find(arr[..len])| >= 2 ==> InOrder(trim.value.find(arr[..len])[1..])
    ensures ExtractInPlace(trim, arr, len) == Extract(trim, arr[..len])
  {
    var msg := arr[..len];
    if trim.Some? {
      var spans := trim.value.find(msg);
      assert ValidMatch(spans, msg, |trim.value.names|);
      if |spans| >= 2 {
        var rest := spans[1..];
        AppendAllAgrees(arr, arr, 0, rest);
        CapturedPrefix(arr, len, rest);
      }
    }
  }

  lemma {:induction false} CapturedPrefix(arr: string, len: nat, spans: seq<Span>)
    requires len <= |arr|
    requires forall k :: 0 <= k < |spans| ==> spans[k].lo <= spans[k].hi <= len
    ensures Captured(arr, spans) == Captured(arr[..len], spans)
    decreases |spans|
  {
    if spans != [] {
      CapturedPrefix(arr, len, spans[1..]);
      assert arr[spans[0].lo..spans[0].hi] == arr[..len][spans[0].lo..spans[0].hi];
    }
  }

  /** The pattern `((ab)c)(d)`, left abstract except for what it captures
      in a subject of four or more bytes. */
  function NestedGroups(): Regexp {
    var p := Pattern(
      s => if |s| >= 4 then [Span(0, 4), Span(0, 3), Span(0, 2), Span(3, 4)] else [],
      ["", "", "", ""]);
    assert Valid(p) by {
      forall s ensures ValidMatch(p.find(s), s, |p.names|) {
      }
    }
    p
  }

  /** A nested group clobbers a later capture: on "abcd" with two spare
      bytes of capacity, "ab" is written over the "d" before it is read. */
  lemma ExtractInPlaceClobbers()
    ensures Extract(Some(NestedGroups()), "abcd") == "abcabd"
    ensures ExtractInPlace(Some(NestedGroups()), "abcdxy", 4) == "abcaba"
  {
    var re := NestedGroups();
    var spans := [Span(0, 3), Span(0, 2), Span(3, 4)];
    assert "abcdxy"[..4] == "abcd";
    assert re.find("abcd") == [Span(0, 4)] + spans;
    assert re.find("abcd")[1..] == spans;
    assert Captured("abcd", spans) == "abcabd" by {
      assert "abcd"[0..3] == "abc";
      assert "abcd"[0..2] == "ab";
      assert "abcd"[3..4] == "d";
      assert spans[1..][1..] == [Span(3, 4)];
    }
    assert "abcdxy"[..0] + "abc" + "abcdxy"[3..] == "abcdxy" by {
      assert "abcdxy"[3..] == "dxy";
    }
    assert AppendCapture("abcdxy", Aliased(0), "abc") == ("abcdxy", Aliased(3));
    assert "abcdxy"[..3] + "ab" + "abcdxy"[5..] == "abcaby" by {
      assert "abcdxy"[..3] == "abc";
      assert "abcdxy"[5..] == "y";
    }
    assert AppendCapture("abcdxy", Aliased(3), "ab") == ("abcaby", Aliased(5));
    assert "abcaby"[..5] + "a" + "abcaby"[6..] == "abcaba" by {
      assert "abcaby"[..5] == "abcab";
      assert "abcaby"[6..] == "";
    }
    assert AppendCapture("abcaby", Aliased(5), "a") == ("abcaba", Aliased(6));
    assert "abcdxy"[0..3] == "abc";
    assert "abcdxy"[0..2] == "ab";
    assert "abcaby"[3..4] == "a";
    assert spans[1..][1..] == [Span(3, 4)];
    assert AppendAll("abcaba", Aliased(6), []) == "abcaba";
  }

  // Scanning
  // --------

  /** What a split function tells the scanner: a token and how far to
      advance, a request for more data (at the end of input: stop), or a
      panic. */
  datatype Split = Token(advance: nat, token: string) | NoToken | Panic

  /** `dropCR`: one trailing carriage return goes. */
  function DropCR(s: string): (r: string)
    ensures s != [] && s[|s| - 1] == '\r' ==> r == s[..|s| - 1]
    ensures s == [] || s[|s| - 1] != '\r' ==> r == s
  {
    if |s| > 0 && s[|s| - 1] == '\r' then s[..|s| - 1] else s
  }

  /** The index of the first newline, if any. */
  function IndexOfNewline(data: string): (i: Option<nat>)
    ensures i.Some? ==> i.value < |data| && data[i.value] == '\n' && '\n' !in data[..i.value]
    ensures i.None? ==> '\n' !in data
    decreases |data|
  {
    if data == [] then None
    else if data[0] == '\n' then Some(0)
    else match IndexOfNewline(data[1..])
      case None => None
      case Some(j) =>
        assert data[..j + 1] == [data[0]] + data[1..][..j];
        Some(j + 1)
  }

  /** `bufio.ScanLines`: up to and without the first newline (a carriage
      return before it dropped); at the end of input, whatever is left. */
  function ScanLines(data: string, atEOF: bool): (r: Split)
    ensures r.Token? ==> 0 < r.advance <= |data| && r.token <= data && '\n' !in r.token
    ensures '\n' in data ==> r.Token? && data[r.advance - 1] == '\n' && '\n' !in data[..r.advance - 1]
    ensures '\n' in data ==> r.token == DropCR(data[..r.advance - 1])
    ensures '\n' !in data && atEOF && data != [] ==> r == Token(|data|, DropCR(data))
    ensures '\n' !in data && (!atEOF || data == []) ==> r == NoToken
  {
    if atEOF && |data| == 0 then NoToken
    else match IndexOfNewline(data)
      case Some(i) =>
        assert data[..i + 1][..i] == data[..i];
        Token(i + 1, DropCR(data[..i]))
      case None =>
        if atEOF then Token(|data|, DropCR(data)) else NoToken
  }

  /** `bufio.MaxScanTokenSize - len(prefix)`. */
  function ChunkSize(prefix: string): int {
    MaxScanTokenSize - |prefix|
  }

  /** The split rule of `writerScanner`: `chunkSize` bytes whenever that
      many are buffered, line splitting otherwise; a negative chunk size
      makes the slice expression panic. */
  function SplitChunk(data: string, atEOF: bool, chunkSize: int): (r: Split)
    ensures r == Panic <==> chunkSize < 0
    ensures 0 <= chunkSize <= |data| ==> r == Token(chunkSize, data[..chunkSize])
    ensures |data| < chunkSize ==> r == ScanLines(data, atEOF)
    ensures r.Token? ==> r.advance <= |data| && r.token <= data && |r.token| <= chunkSize
  {
    if |data| >= chunkSize then
      if chunkSize < 0 then Panic else Token(chunkSize, data[..chunkSize])
    else ScanLines(data, atEOF)
  }

  /** The point of subtracting the prefix from the chunk size: every line
      the scan loop emits, prefix included, holds at most `MaxScanTokenSize`
      bytes before its newline. */
  lemma LinesFitTheBuffer<W>(s: Std<W>, data: string, atEOF: bool)
    requires |s.prefix| <= MaxScanTokenSize && s.trim.None?
    ensures var r := SplitChunk(data, atEOF, ChunkSize(s.prefix));
      r.Token? ==> |EmitLine(s, r.token)| <= MaxScanTokenSize + 1
  {
    var r := SplitChunk(data, atEOF, ChunkSize(s.prefix));
    if r.Token? {
      var line := EmitLine(s, r.token);
      assert |line| == |s.prefix| + |line[|s.prefix|..|line| - 1]| + 1;
      assert |TrimRight(r.token)| <= |r.token|;
    }
  }

  /** The chunk rule comes first, so a chunk cut from a burst of short lines
      carries newlines inside it and becomes one log line. */
  lemma ChunkMayHoldSeveralLines(data: string, chunkSize: int)
    requires 2 <= chunkSize <= |data| && data[0] != '\n' && data[1] == '\n'
    ensures SplitChunk(data, false, chunkSize).Token?
    ensures '\n' in SplitChunk(data, false, chunkSize).token
    ensures ScanLines(data, false) == Token(2, DropCR(data[..1]))
  {
    assert data[..chunkSize][1] == '\n';
    assert data[..1] == [data[0]];
  }

  /** `bytes.TrimRight(p, "\r\n")`: the longest prefix not ending in a
      carriage return or newline. */
  function TrimRight(s: string): (r: string)
    ensures r <= s
    ensures forall i :: |r| <= i < |s| ==> s[i] == '\r' || s[i] == '\n'
    ensures r == [] || (r[|r| - 1] != '\r' && r[|r| - 1] != '\n')
    decreases |s|
  {
    if s != [] && (s[|s| - 1] == '\r' || s[|s| - 1] == '\n') then TrimRight(s[..|s| - 1]) else s
  }

  /** One pass of the scan loop: trim the token's line ending, extract the
      message, put the stream prefix in front and one newline behind. */
  function EmitLine<W>(s: Std<W>, token: string): (line: string)
    ensures |line| > |s.prefix| && line[|line| - 1] == '\n'
    ensures line[..|s.prefix|] == s.prefix
    ensures line[|s.prefix|..|line| - 1] == Extract(s.trim, TrimRight(token))
    ensures s.trim.None? ==> line[|s.prefix|..|line| - 1] == TrimRight(token)
  {
    var body := Extract(s.trim, TrimRight(token));
    var line := s.prefix + body + "\n";
    assert line[..|s.prefix|] == s.prefix;
    assert line[|s.prefix|..|line| - 1] == body;
    line
  }

  /** Without a trim pattern every emitted line ends in exactly one newline:
      the character before it is neither a newline nor a carriage return. */
  lemma EmitLineEndsOnce<W>(l: Logger<W>, st: Stream, token: string)
    ensures var line := EmitLine(Writer(l, st), token);
      |line| >= 2 ==> line[|line| - 2] != '\n' && line[|line| - 2] != '\r'
  {
    var s := Writer(l, st);
    var line := EmitLine(s, token);
    var t := TrimRight(token);
    assert line == s.prefix + t + "\n" by {
      assert line[..|s.prefix|] == s.prefix;
      assert line[|s.prefix|..|line| - 1] == t;
      assert line == line[..|s.prefix|] + line[|s.prefix|..|line| - 1] + [line[|line| - 1]];
    }
    if t == [] && s.prefix != [] {
      assert line[|line| - 2] == s.prefix[|s.prefix| - 1] == Reset[|Reset| - 1];
    } else if t != [] {
      assert line[|line| - 2] == t[|t| - 1];
    }
  }

  // /dev/null
  // ---------

  datatype Io = Io(n: nat, eof: bool)

  /** `devNull.Read`: nothing is read, and the input is at its end
      whatever the buffer. */
  function DevNullRead(p: string): (r: Io)
    ensures r.n == 0 && r.eof
  {
    Io(0, true)
  }

  /** `devNull.Write`: every byte is accepted and dropped, without error. */
  function DevNullWrite(p: string): (r: Io)
    ensures r.n == |p| && !r.eof
  {
    Io(|p|, false)
  }

  /** `devNull.Close`: closing always succeeds. */
  function DevNullClose(): (err: Option<string>)
    ensures err.None?
  {
    None
  }
}

=== FILE: observer.dfy ===
/** The status bus (observer.go): an ordered list of observers and a
    synchronous fan-out `publish`. The world the observers act on is a type
    parameter `W`; an observer's effect is `notify(observer, status, world)`. */
module Observer {

  /** The snapshot published on every registry transition: the names in each
      partition and the license-to-kill list, as `registry.status()` builds it. */
  datatype Status = Status(
    ready: set<string>,
    running: set<string>,
    stopped: set<string>,
    licenseToKill: seq<string>)

  /** `observable.attachObserver`: the new observer goes last, the others keep
      their places. */
  function Attach<O>(observers: seq<O>, o: O): (r: seq<O>)
    ensures |r| == |observers| + 1
    ensures r[..|observers|] == observers && r[|observers|] == o
  {
    observers + [o]
  }

  /** `observerFunc.notify`: an observer that is just a function applies it to
      the status. */
  function NotifyFunc<W>(fn: (Status, W) -> W, status: Status, w: W): W {
    fn(status, w)
  }

  /** `observable.publish`: every observer is notified once, first attached
      first, each with the same status. */
  function Publish<O, W>(observers: seq<O>, notify: (O, Status, W) -> W, status: Status, w: W): (r: W)
    ensures observers == [] ==> r == w
    decreases |observers|
  {
    if observers == [] then w
    else Publish(observers[1..], notify, status, notify(observers[0], status, w))
  }

  /** Publishing after one more `Attach` runs the old fan-out and then the new
      observer. */
  lemma {:induction false} PublishAttach<O, W>(observers: seq<O>, o: O, notify: (O, Status, W) -> W, status: Status, w: W)
    ensures Publish(Attach(observers, o), notify, status, w)
         == notify(o, status, Publish(observers, notify, status, w))
    decreases |observers|
  {
    if observers == [] {
      assert Attach(observers, o) == [o];
    } else {
      assert Attach(observers, o)[1..] == Attach(observers[1..], o);
      PublishAttach(observers[1..], o, notify, status, notify(observers[0], status, w));
    }
  }

  /** A notification as an observer receives it. */
  datatype Delivery<O> = Delivery(observer: O, status: Status)

  /** An observer whose only effect is to record that it was called. */
  function Record<O>(o: O, status: Status, log: seq<Delivery<O>>): seq<Delivery<O>> {
    log + [Delivery(o, status)]
  }

  /** What `publish` does, seen from the observers: exactly one call per
      attached observer, in attachment order, all with the identical status. */
  lemma {:induction false} PublishDeliversOnceInOrder<O>(observers: seq<O>, status: Status, log: seq<Delivery<O>>)
    ensures var r := Publish(observers, Record, status, log);
      && |r| == |log| + |observers|
      && r[..|log|] == log
      && forall i :: 0 <= i < |observers| ==> r[|log| + i] == Delivery(observers[i], status)
    decreases |observers|
  {
    if observers != [] {
      var log' := Record(observers[0], status, log);
      PublishDeliversOnceInOrder(observers[1..], status, log');
      var r := Publish(observers, Record, status, log);
      assert r == Publish(observers[1..], Record, status, log');
      forall i | 0 <= i < |observers|
        ensures r[|log| + i] == Delivery(observers[i], status)
      {
        if i > 0 {
          assert r[|log'| + (i - 1)] == Delivery(observers[1..][i - 1], status);
        } else {
          assert r[..|log'|] == log';
        }
      }
    }
  }

  /** The functions applied one after the other, the first attached first:
      the last one is applied to what the others made of the world. */
  function ApplyInOrder<W>(fs: seq<(Status, W) -> W>, status: Status, w: W): W
    decreases |fs|
  {
    if fs == [] then w else fs[|fs| - 1](status, ApplyInOrder(fs[..|fs| - 1], status, w))
  }

  /** Publishing to observers that are plain functions (`observerFunc`)
      applies them in attachment order. */
  lemma {:induction false} PublishFuncsInOrder<W>(fs: seq<(Status, W) -> W>, status: Status, w: W)
    ensures Publish(fs, NotifyFunc, status, w) == ApplyInOrder(fs, status, w)
    decreases |fs|
  {
    if fs != [] {
      var init := fs[..|fs| - 1];
      var last := fs[|fs| - 1];
      assert Attach(init, last) == fs;
      PublishAttach(init, last, NotifyFunc, status, w);
      PublishFuncsInOrder(init, status, w);
    }
  }
}

=== FILE: process.dfy ===
/** process.go: one configured service. The model keeps the configuration
    fields and the `wait` / `kill` hook lists; the child command, its pipes and
    the environment are left to the operating system. */
module Process {
  import opened Wrappers
  import opened Seqs
  import opened Regex
  import Observer
  import Utils

  /** A service definition. `wait` and `kill` are `Hooks["wait"]` and
      `Hooks["kill"]`; an absent key reads as the empty list, as a Go map
      lookup does. */
  datatype Proc = Proc(
    name: string,
    wait: seq<string>,
    kill: seq<string>,
    pwd: string,
    command: string,
    environment: map<string, string>,
    logTrimPattern: string,
    ignoreError: bool,
    padding: int)

  // Dependency gate
  // ---------------

  /** `wait()` keeps sleeping while `Hooks["wait"]` is non-empty, so it
      returns exactly when this holds. */
  predicate GateOpen(p: Proc): (open: bool)
    ensures open <==> forall x :: x !in p.wait
  {
    assert p.wait != [] ==> p.wait[0] in p.wait;
    p.wait == []
  }

  /** The wait list without the names in `stopped`: the intended effect of
      `update`, which the rest of the model uses. */
  function Prune(wait: seq<string>, stopped: set<string>): (r: seq<string>)
    ensures forall x :: x in r <==> x in wait && x !in stopped
    ensures IsSubsequence(r, wait)
    ensures NoDup(wait) ==> NoDup(r)
    decreases |wait|
  {
    if wait == [] then []
    else
      var rest := Prune(wait[1..], stopped);
      assert forall x :: x in wait <==> x == wait[0] || x in wait[1..];
      if wait[0] in stopped then
        SubsequenceTail(rest, wait);
        rest
      else
        assert NoDup(wait) ==> wait[0] !in wait[1..];
        assert ([wait[0]] + rest)[1..] == rest;
        [wait[0]] + rest
  }

  lemma {:induction false} PruneAppend(a: seq<string>, b: seq<string>, stopped: set<string>)
    ensures Prune(a + b, stopped) == Prune(a, stopped) + Prune(b, stopped)
    decreases |a|
  {
    if a == [] {
      assert a + b == b;
    } else {
      assert (a + b)[1..] == a[1..] + b;
      PruneAppend(a[1..], b, stopped);
    }
  }

  lemma {:induction false} PruneNothing(wait: seq<string>, stopped: set<string>)
    requires forall x :: x in wait ==> x !in stopped
    ensures Prune(wait, stopped) == wait
    decreases |wait|
  {
    if wait != [] {
      PruneNothing(wait[1..], stopped);
    }
  }

  /** Pruning by `a` and then by `b` is pruning by both at once; in
      particular pruning twice by the same set changes nothing more. */
  lemma {:induction false} PruneTwice(wait: seq<string>, a: set<string>, b: set<string>)
    ensures Prune(Prune(wait, a), b) == Prune(wait, a + b)
    decreases |wait|
  {
    if wait != [] {
      PruneTwice(wait[1..], a, b);
      if wait[0] !in a {
        assert Prune(wait, a) == [wait[0]] + Prune(wait[1..], a);
        assert Prune(wait, a)[1..] == Prune(wait[1..], a);
      }
    }
  }

  /** `update` as an observer of the status bus. */
  function Update(p: Proc, status: Observer.Status): (q: Proc)
    ensures q.(wait := p.wait) == p
    ensures forall x :: x in q.wait <==> x in p.wait && x !in status.stopped
    ensures IsSubsequence(q.wait, p.wait)
  {
    p.(wait := Prune(p.wait, status.stopped))
  }

  /** After an update the gate is open exactly when every name the process
      waited for is among the stopped ones. */
  lemma UpdateOpensGate(p: Proc, status: Observer.Status)
    ensures GateOpen(Update(p, status)) <==> forall x :: x in p.wait ==> x in status.stopped
  {
    var w := Update(p, status).wait;
    ElemsEmpty(w);
    assert forall x :: x in Elems(w) <==> x in w;
  }

  // `update` as written: deleting from the slice it is ranging over
  // ----------------------------------------------------------------

  /** One `for i, name := range Hooks["wait"]` loop looking for `target`.
      `backing` is the slice's shared array, `len` the current length of
      `Hooks["wait"]`, `n` the length the range captured when it started.
      A match at `i` runs `append(w[:i], w[i+1:]...)`: the tail shifts left in
      the same array, the length drops by one, and the range goes on reading
      the shifted array; `w[i+1:]` panics once `i + 1 > len`. */
  function RangeDelete(backing: seq<string>, len: nat, i: nat, n: nat, target: string): (r: Option<(seq<string>, nat)>)
    requires len <= |backing| && n <= |backing|
    ensures r.Some? ==> |r.value.0| == |backing| && r.value.1 <= len
    decreases n - i
  {
    if i >= n then Some((backing, len))
    else if backing[i] != target then RangeDelete(backing, len, i + 1, n, target)
    else if i + 1 > len then None
    else RangeDelete(backing[..i] + backing[i + 1..len] + backing[len - 1..], len - 1, i + 1, n, target)
  }

  /** The outer loop over `status["stopped"]`, in the order the snapshot lists
      it; each pass re-reads `Hooks["wait"]`. */
  function UpdateLoop(backing: seq<string>, len: nat, stoppedOrder: seq<string>): (r: Option<seq<string>>)
    requires len <= |backing|
    ensures r.Some? ==> |r.value| <= len
    decreases |stoppedOrder|
  {
    if stoppedOrder == [] then Some(backing[..len])
    else match RangeDelete(backing, len, 0, len, stoppedOrder[0])
      case None => None
      case Some((b, l)) => UpdateLoop(b, l, stoppedOrder[1..])
  }

  /** `process.update` exactly as written; `None` is the index panic. */
  function UpdateInPlace(wait: seq<string>, stoppedOrder: seq<string>): (r: Option<seq<string>>)
    ensures r.Some? ==> |r.value| <= |wait|
    ensures stoppedOrder == [] ==> r == Some(wait)
  {
    assert wait[..|wait|] == wait;
    UpdateLoop(wait, |wait|, stoppedOrder)
  }

  lemma {:induction false} RangeDeleteSkips(backing: seq<string>, len: nat, i: nat, k: nat, n: nat, target: string)
    requires len <= |backing| && n <= |backing| && i <= k <= n
    requires forall m :: i <= m < k ==> backing[m] != target
    ensures RangeDelete(backing, len, i, n, target) == RangeDelete(backing, len, k, n, target)
    decreases k - i
  {
    if i < k {
      RangeDeleteSkips(backing, len, i + 1, k, n, target);
    }
  }

  /** The list `w` with position `k` cut out. */
  lemma PruneUniqueAt(w: seq<string>, k: nat, target: string)
    requires k < |w| && w[k] == target && NoDup(w)
    ensures Prune(w, {target}) == w[..k] + w[k + 1..]
  {
    forall i | 0 <= i < |w| && i != k ensures w[i] != target {
      if i < k { assert w[i] != w[k]; } else { assert w[k] != w[i]; }
    }
    PruneOnlyAt(w, k, target);
  }

  /** Pruning a name that occurs only at position `k` cuts out position `k`. */
  lemma {:induction false} PruneOnlyAt(w: seq<string>, k: nat, target: string)
    requires k < |w| && w[k] == target
    requires forall i :: 0 <= i < |w| && i != k ==> w[i] != target
    ensures Prune(w, {target}) == w[..k] + w[k + 1..]
    decreases k
  {
    var tail := w[1..];
    if k == 0 {
      forall x | x in tail ensures x !in {target} {
        var i :| 0 <= i < |tail| && tail[i] == x;
        assert w[i + 1] == x;
      }
      PruneNothing(tail, {target});
      assert w[..k] + w[k + 1..] == tail;
    } else {
      assert w[0] != target;
      forall i | 0 <= i < |tail| && i != k - 1 ensures tail[i] != target {
        assert tail[i] == w[i + 1];
      }
      calc {
        Prune(w, {target});
        [w[0]] + Prune(tail, {target});
        { PruneOnlyAt(tail, k - 1, target); }
        [w[0]] + (tail[..k - 1] + tail[k..]);
        { CutAfterHead(w, k); }
        w[..k] + w[k + 1..];
      }
    }
  }

  /** Cutting out position `k > 0` keeps the head and cuts position `k - 1`
      out of the tail. */
  lemma CutAfterHead(w: seq<string>, k: nat)
    requires 0 < k < |w|
    ensures w[..k] + w[k + 1..] == [w[0]] + (w[1..][..k - 1] + w[1..][k..])
  {
    assert w[..k] == [w[0]] + w[1..][..k - 1];
    assert w[k + 1..] == w[1..][k..];
  }

  /** The delete at the one match `k`, and the rest of the range finding
      nothing more. */
  lemma RangeDeleteAt(backing: seq<string>, len: nat, k: nat, target: string)
    requires len <= |backing| && NoDup(backing[..len]) && k < len && backing[k] == target
    ensures var r := RangeDelete(backing, len, k, len, target);
      && r.Some?
      && r.value.1 == len - 1
      && r.value.0[..len - 1] == backing[..k] + backing[k + 1..len]
  {
    var b' := backing[..k] + backing[k + 1..len] + backing[len - 1..];
    assert |b'| == |backing|;
    forall m | k + 1 <= m < len
      ensures b'[m] != target
    {
      if m < len - 1 {
        assert b'[m] == backing[..len][m + 1];
      } else {
        assert b'[m] == backing[..len][len - 1];
      }
    }
    RangeDeleteSkips(b', len - 1, k + 1, len, len, target);
    assert b'[..len - 1] == backing[..k] + backing[k + 1..len];
  }

  /** On a duplicate-free list one range pass removes exactly the target. */
  lemma RangeDeleteUnique(backing: seq<string>, len: nat, target: string)
    requires len <= |backing| && NoDup(backing[..len])
    ensures var r := RangeDelete(backing, len, 0, len, target);
      && r.Some?
      && r.value.1 <= |r.value.0|
      && r.value.0[..r.value.1] == Prune(backing[..len], {target})
  {
    var w := backing[..len];
    if target !in w {
      RangeDeleteSkips(backing, len, 0, len, len, target);
      PruneNothing(w, {target});
    } else {
      var k :| 0 <= k < len && w[k] == target;
      RangeDeleteSkips(backing, len, 0, k, len, target);
      RangeDeleteAt(backing, len, k, target);
      PruneUniqueAt(w, k, target);
      assert w[..k] == backing[..k];
      assert w[k + 1..] == backing[k + 1..len];
    }
  }

  lemma {:induction false} UpdateLoopUnique(backing: seq<string>, len: nat, stoppedOrder: seq<string>)
    requires len <= |backing| && NoDup(backing[..len])
    ensures UpdateLoop(backing, len, stoppedOrder) == Some(Prune(backing[..len], Elems(stoppedOrder)))
    decreases |stoppedOrder|
  {
    if stoppedOrder == [] {
      assert Elems(stoppedOrder) == {};
      PruneNothing(backing[..len], {});
    } else {
      var t := stoppedOrder[0];
      RangeDeleteUnique(backing, len, t);
      var (b, l) := RangeDelete(backing, len, 0, len, t).value;
      UpdateLoopUnique(b, l, stoppedOrder[1..]);
      PruneTwice(backing[..len], {t}, Elems(stoppedOrder[1..]));
      assert {t} + Elems(stoppedOrder[1..]) == Elems(stoppedOrder);
    }
  }

  /** For a duplicate-free wait list, `update` as written removes every
      stopped name and nothing else, whatever order the snapshot lists the
      stopped names in: it agrees with `Prune`. */
  lemma UpdateInPlaceIsPrune(wait: seq<string>, stoppedOrder: seq<string>)
    requires NoDup(wait)
    ensures UpdateInPlace(wait, stoppedOrder) == Some(Prune(wait, Elems(stoppedOrder)))
  {
    assert wait[..|wait|] == wait;
    UpdateLoopUnique(wait, |wait|, stoppedOrder);
  }

  /** A repeated wait name makes `update` as written panic: the second match
      slices `w[2:]` of a list that has shrunk to length 1. */
  lemma UpdateInPlacePanicsOnDuplicate()
    ensures UpdateInPlace(["a", "a"], ["a"]) == None
  {
    var b1 := ["a", "a"][..0] + ["a", "a"][1..2] + ["a", "a"][1..];
    assert b1 == ["a", "a"];
    assert RangeDelete(["a", "a"], 2, 0, 2, "a") == RangeDelete(b1, 1, 1, 2, "a");
  }

  /** With the repeated name first, `update` as written skips the copy that
      shifted into the deleted slot: one "a" survives although "a" stopped,
      so the gate never opens. */
  lemma UpdateInPlaceKeepsDuplicate()
    ensures UpdateInPlace(["a", "a", "b"], ["a"]) == Some(["a", "b"])
  {
    var w := ["a", "a", "b"];
    var b1 := w[..0] + w[1..3] + w[2..];
    assert b1 == ["a", "b", "b"];
    assert RangeDelete(w, 3, 0, 3, "a") == RangeDelete(b1, 2, 1, 3, "a");
    assert RangeDelete(b1, 2, 1, 3, "a") == Some((b1, 2));
    assert b1[..2] == ["a", "b"];
  }

  /** One range pass, duplicates or not, only ever cuts out the target: every
      other name of the list survives, and nothing new appears. */
  lemma {:induction false} RangeDeleteKeeps(backing: seq<string>, len: nat, i: nat, n: nat, target: string)
    requires len <= |backing| && n <= |backing|
    ensures var r := RangeDelete(backing, len, i, n, target);
      r.Some? ==>
        && r.value.1 <= |r.value.0|
        && IsSubsequence(r.value.0[..r.value.1], backing[..len])
        && (forall x :: x in backing[..len] && x != target ==> x in r.value.0[..r.value.1])
    decreases n - i
  {
    if i >= n {
      SubsequenceRefl(backing[..len]);
    } else if backing[i] != target {
      RangeDeleteKeeps(backing, len, i + 1, n, target);
    } else if i + 1 <= len {
      var b' := backing[..i] + backing[i + 1..len] + backing[len - 1..];
      DeleteAtKeeps(backing, len, i, target);
      RangeDeleteKeeps(b', len - 1, i + 1, n, target);
      var r := RangeDelete(b', len - 1, i + 1, n, target);
      if r.Some? {
        SubsequenceTrans(r.value.0[..r.value.1], b'[..len - 1], backing[..len]);
      }
    }
  }

  /** The delete at a match `i`: the list without position `i`. */
  lemma DeleteAtKeeps(backing: seq<string>, len: nat, i: nat, target: string)
    requires len <= |backing| && i < len && backing[i] == target
    ensures var b' := backing[..i] + backing[i + 1..len] + backing[len - 1..];
      && IsSubsequence(b'[..len - 1], backing[..len])
      && (forall x :: x in backing[..len] && x != target ==> x in b'[..len - 1])
  {
    var w := backing[..len];
    var b' := backing[..i] + backing[i + 1..len] + backing[len - 1..];
    assert b'[..len - 1] == w[..i] + w[i + 1..];
    assert w == w[..i] + [target] + w[i + 1..];
    CutIsSubsequence(w, i);
  }

  lemma {:induction false} UpdateLoopKeeps(backing: seq<string>, len: nat, stoppedOrder: seq<string>)
    requires len <= |backing|
    ensures var r := UpdateLoop(backing, len, stoppedOrder);
      r.Some? ==>
        && IsSubsequence(r.value, backing[..len])
        && (forall x :: x in backing[..len] && x !in stoppedOrder ==> x in r.value)
    decreases |stoppedOrder|
  {
    if stoppedOrder == [] {
      SubsequenceRefl(backing[..len]);
    } else {
      var t := stoppedOrder[0];
      RangeDeleteKeeps(backing, len, 0, len, t);
      match RangeDelete(backing, len, 0, len, t)
      case None =>
      case Some((b, l)) =>
        UpdateLoopKeeps(b, l, stoppedOrder[1..]);
        assert forall x :: x in stoppedOrder[1..] ==> x in stoppedOrder;
        var r := UpdateLoop(b, l, stoppedOrder[1..]);
        if r.Some? {
          SubsequenceTrans(r.value, b[..l], backing[..len]);
        }
    }
  }

  /** `update` as written is sound even with repeated names: when it does not
      panic, what is left is a subsequence of the wait list and only stopped
      names are gone. So a wait list that is what remains of a configured one,
      with every name gone from it stopped, stays so; its gate opens only once
      every configured name is stopped, and never before `Prune`'s does. */
  lemma UpdateInPlaceSound(config: seq<string>, wait: seq<string>, stoppedOrder: seq<string>)
    requires IsSubsequence(wait, config)
    requires forall x :: x in config && x !in wait ==> x in stoppedOrder
    ensures var r := UpdateInPlace(wait, stoppedOrder);
      r.Some? ==>
        && IsSubsequence(r.value, config)
        && (forall x :: x in config && x !in r.value ==> x in stoppedOrder)
        && (r.value == [] ==> forall x :: x in config ==> x in stoppedOrder)
  {
    assert wait[..|wait|] == wait;
    UpdateLoopKeeps(wait, |wait|, stoppedOrder);
    var r := UpdateInPlace(wait, stoppedOrder);
    if r.Some? {
      SubsequenceTrans(r.value, wait, config);
    }
  }

  /** The intended update removes every occurrence of a stopped name and
      keeps the order of the rest, duplicates or not. */
  lemma PruneRemovesEveryStoppedName(wait: seq<string>, stopped: set<string>)
    ensures forall x :: x in stopped ==> x !in Prune(wait, stopped)
    ensures IsSubsequence(Prune(wait, stopped), wait)
    ensures Prune(["a", "a", "b"], {"a"}) == ["b"]
  {
    assert Prune(["b"], {"a"}) == ["b"];
    assert ["a", "a", "b"][1..] == ["a", "b"];
    assert ["a", "b"][1..] == ["b"];
  }

  /** `wantedDeadOrDead`: the names to force-stop when this process ends. */
  function WantedDeadOrDead(p: Proc): (k: seq<string>)
    ensures k == p.kill
  {
    p.kill
  }

  // Command preparation (`run`)
  // ---------------------------

  /** `setWorkdir`: the configured directory, or the invoking directory when
      none is configured. */
  function Workdir(pwd: string, homedir: string): (dir: string)
    ensures pwd != "" ==> dir == pwd
    ensures pwd == "" ==> dir == homedir
  {
    if pwd != "" then pwd else homedir
  }

  /** The parts joined back with single spaces (`strings.Join(parts, " ")`). */
  function JoinSpaces(parts: seq<string>): string
    requires |parts| >= 1
  {
    if |parts| == 1 then parts[0] else parts[0] + " " + JoinSpaces(parts[1..])
  }

  function IndexOfSpace(s: string): (k: nat)
    requires ' ' in s
    ensures k < |s| && s[k] == ' ' && ' ' !in s[..k]
  {
    if s[0] == ' ' then 0
    else
      var k := IndexOfSpace(s[1..]) + 1;
      assert s[..k] == [s[0]] + s[1..][..k - 1];
      k
  }

  /** `strings.Split(command, " ")`: cut at every single space, so two
      spaces in a row yield an empty part; there is always at least one part.
      The parts contain no space and join back to the input. */
  function SplitSpaces(s: string): (parts: seq<string>)
    ensures |parts| >= 1
    ensures forall i :: 0 <= i < |parts| ==> ' ' !in parts[i]
    ensures JoinSpaces(parts) == s
    ensures ' ' !in s ==> parts == [s]
    ensures ' ' in s ==> parts[0] == s[..IndexOfSpace(s)]
    decreases |s|
  {
    if ' ' !in s then [s]
    else
      var k := IndexOfSpace(s);
      var rest := SplitSpaces(s[k + 1..]);
      assert s == s[..k] + " " + s[k + 1..];
      assert ([s[..k]] + rest)[1..] == rest;
      [s[..k]] + rest
  }

  /** `Split` undoes `Join` for parts without spaces: the split loses
      nothing and invents nothing. */
  lemma {:induction false} SplitJoin(parts: seq<string>)
    requires |parts| >= 1
    requires forall i :: 0 <= i < |parts| ==> ' ' !in parts[i]
    ensures SplitSpaces(JoinSpaces(parts)) == parts
    decreases |parts|
  {
    if |parts| > 1 {
      var s := JoinSpaces(parts);
      SplitJoin(parts[1..]);
      assert s == parts[0] + " " + JoinSpaces(parts[1..]);
      assert s[|parts[0]|] == ' ';
      var k := IndexOfSpace(s);
      assert s[..|parts[0]|] == parts[0];
      assert k == |parts[0]|;
      assert s[k + 1..] == JoinSpaces(parts[1..]);
      assert s[..k] == parts[0];
    }
  }

  /** The command `run` hands to the operating system. */
  datatype Launch = Launch(path: string, args: seq<string>, dir: string, trim: Option<Regexp>)

  /** The preparation part of `run`: compile the trim pattern (its error is
      returned before anything else happens), expand the command, split it at
      spaces into program and arguments, and choose the working directory.
      `compile` stands for `regexp.Compile` and `expand` for `os.ExpandEnv`
      after `setEnvironment`. */
  function Prepare(p: Proc, homedir: string, compile: string -> Result<Regexp, string>, expand: string -> string): (r: Result<Launch, string>)
    ensures p.logTrimPattern != "" && compile(p.logTrimPattern).Err? ==> r == Err(compile(p.logTrimPattern).error)
    ensures r.Err? ==> p.logTrimPattern != "" && compile(p.logTrimPattern).Err?
    ensures r.Ok? ==>
      && JoinSpaces([r.value.path] + r.value.args) == expand(p.command)
      && ' ' !in r.value.path
      && (forall i :: 0 <= i < |r.value.args| ==> ' ' !in r.value.args[i])
      && (p.pwd != "" ==> r.value.dir == p.pwd)
      && (p.pwd == "" ==> r.value.dir == homedir)
      && (p.logTrimPattern == "" <==> r.value.trim.None?)
      && (r.value.trim.Some? ==> compile(p.logTrimPattern) == Ok(r.value.trim.value))
  {
    var trim :=
      if p.logTrimPattern == "" then Ok(None)
      else match compile(p.logTrimPattern)
        case Ok(re) => Ok(Some(re))
        case Err(e) => Err(e);
    match trim
    case Err(e) => Err(e)
    case Ok(t) =>
      var args := SplitSpaces(expand(p.command));
      assert args == [args[0]] + args[1..];
      Ok(Launch(args[0], args[1..], Workdir(p.pwd, homedir), t))
  }

  // Logging helpers
  // ---------------

  /** `paddedName`: prepend spaces until the name is `padding` long. The loop
      only stops on equality, so a name longer than `padding` never
      terminates: that is the precondition. */
  method PaddedName(p: Proc) returns (name: string)
    requires |p.name| <= p.padding
    ensures |name| == p.padding
    ensures name[p.padding - |p.name|..] == p.name
    ensures forall i :: 0 <= i < p.padding - |p.name| ==> name[i] == ' '
  {
    name := p.name;
    while |name| != p.padding
      invariant |p.name| <= |name| <= p.padding
      invariant name[|name| - |p.name|..] == p.name
      invariant forall i :: 0 <= i < |name| - |p.name| ==> name[i] == ' '
      decreases p.padding - |name|
    {
      name := " " + name;
    }
  }

  /** `extractMessage`: without a compiled trim pattern the line passes
      unchanged; a match with at least one group yields the capture named
      `message` (the empty string when no group has that name); anything else
      is marked as unrecognised with "[!] ". */
  function ExtractMessage(trim: Option<Regexp>, msg: string): (r: string)
    ensures trim.None? ==> r == msg
    ensures trim.Some? && |FindStringSubmatch(trim.value, msg)| <= 1 ==> r == "[!] " + msg
    ensures trim.Some? && |FindStringSubmatch(trim.value, msg)| > 1 ==>
      var names := SubexpNames(trim.value);
      var m := FindStringSubmatch(trim.value, msg);
      && ((forall i :: 1 <= i < |names| ==> names[i] != "message") ==> r == "")
      && (forall i :: 1 <= i < |names| && names[i] == "message" && Utils.LastNamed(names, i) ==> r == m[i])
  {
    match trim
    case None => msg
    case Some(re) =>
      var m := FindStringSubmatch(re, msg);
      if |m| > 1 then
        var names := SubexpNames(re);
        var lookup := Utils.MatcherLookup(m, names);
        Utils.NamedKeysExactly(names, "message");
        if "message" in lookup then lookup["message"] else ""
      else "[!] " + msg
  }
}

=== FILE: processor.dfy ===
/** processor.go: the scheduler, as a sequential state machine. Each
    goroutine's work is cut into steps at the points where another goroutine
    can act in between; any interleaving of the steps is a run (`Execute`).
    Channels are the queues `errors` and `terminate`; `process.stop()` is
    recorded as an event in `stopCalls`. */
module Processor {
  import opened Wrappers
  import opened Seqs
  import opened Process
  import opened Registry

  /** The errors a run can return: `context.Canceled`, or any other. */
  datatype Error = Canceled | Failure(message: string)

  /** Where the task goroutine `perform` spawned for a process stands. */
  datatype Phase =
    | Waiting   // blocked in `wait()`
    | Launched  // past `updateStatus(running)`, inside `run`
    | Returned  // `run` returned; its error, if any, was forwarded
    | Closed    // `Done` closed and the process marked stopped

  datatype State = State(
    reg: Reg,
    termination: bool,          // `p.termination`, set by the first shutdown
    shutdowns: nat,             // shutdown bodies run ("Gracefully shutdown composer" logs)
    tasks: map<string, Phase>,  // the task goroutines still alive
    done: set<string>,          // processes whose `Done` channel is closed
    stopCalls: seq<string>,     // `process.stop()` calls, in order
    errors: seq<Option<Error>>, // sent on the error channel, not yet received
    handled: bool,              // `handleErrors`' own `termination` variable
    errorLog: seq<Error>,       // errors `handleErrors` logged
    terminate: seq<seq<string>>, // kill lists sent on the terminate channel, not yet received
    batch: seq<string>)         // what the terminator has still to do of the kill list it received

  /** `perform` spawns one task per process that is ready at that moment. */
  function Perform(r: Reg): (s: State)
    ensures s.reg == r && !s.termination && s.shutdowns == 0
    ensures s.tasks.Keys == r.ready && forall n :: n in s.tasks ==> s.tasks[n] == Waiting
    ensures s.errors == [] && s.terminate == [] && s.batch == [] && s.stopCalls == []
    ensures s.done == {} && !s.handled && s.errorLog == []
  {
    State(r, false, 0, map n | n in r.ready :: Waiting, {}, [], [], false, [], [], [])
  }

  /** Everything but the registry and the stop calls is as it was. */
  predicate SameChannels(s: State, q: State) {
    q == s.(reg := q.reg, stopCalls := q.stopCalls)
  }

  /** `processor.stop`: stop the process, then mark it stopped. */
  function Stop(s: State, name: string): (q: State)
    ensures q.stopCalls == s.stopCalls + [name]
    ensures q.reg.ready == s.reg.ready
    ensures q.reg.running == s.reg.running - {name} && q.reg.stopped == s.reg.stopped + {name}
    ensures Evolves(s.reg, q.reg) && Pruned(q.reg) && SameChannels(s, q)
  {
    var res := UpdateStatus(s.reg, name, "stopped");
    s.(stopCalls := s.stopCalls + [name], reg := res.value)
  }

  /** Every process of the list, in order, through `processor.stop`. */
  function StopEach(s: State, names: seq<string>): (q: State)
    ensures q.stopCalls == s.stopCalls + names
    ensures q.reg.ready == s.reg.ready
    ensures q.reg.running == s.reg.running - Elems(names)
    ensures q.reg.stopped == s.reg.stopped + Elems(names)
    ensures Evolves(s.reg, q.reg) && SameChannels(s, q)
    ensures names != [] ==> Pruned(q.reg)
    decreases |names|
  {
    if names == [] then
      EvolvesRefl(s.reg);
      s
    else
      var s1 := Stop(s, names[0]);
      var q := StopEach(s1, names[1..]);
      EvolvesTrans(s.reg, s1.reg, q.reg);
      assert Elems(names) == {names[0]} + Elems(names[1..]);
      assert s.stopCalls + names == s.stopCalls + [names[0]] + names[1..];
      q
  }

  /** Names every partition knows. */
  function Known(r: Reg): set<string> {
    r.ready + r.running + r.stopped
  }

  /** One pass of the loop of `stopAllGivenNames`: the name is looked up; a
      ready one is marked stopped without a stop call, a running one is
      stopped, a stopped one is left alone, and an unknown one panics. */
  function StopGivenName(s: State, n: string): (res: Result<State, string>)
    ensures res.Ok? <==> n in Known(s.reg)
    ensures res.Ok? ==>
      var q := res.value;
      && q.reg.ready == s.reg.ready
      && q.reg.running == s.reg.running - {n}
      && q.reg.stopped == s.reg.stopped + {n}
      && q.stopCalls == s.stopCalls + (if n in s.reg.running - s.reg.ready then [n] else [])
      && Known(q.reg) == Known(s.reg)
      && Evolves(s.reg, q.reg) && SameChannels(s, q)
  {
    match GetProcess(s.reg, n)
    case Err(e) => Err(e)
    case Ok(where) =>
      if where == Ready then Ok(s.(reg := UpdateStatus(s.reg, n, "stopped").value))
      else if where == Running then Ok(Stop(s, n))
      else
        EvolvesRefl(s.reg);
        Ok(s)
  }

  /** `stopAllGivenNames`, the kill-hook cascade: every name in turn through
      `StopGivenName`; the first unknown name panics. */
  function StopAllGivenNames(s: State, names: seq<string>): (res: Result<State, string>)
    ensures res.Ok? <==> forall i :: 0 <= i < |names| ==> names[i] in Known(s.reg)
    ensures res.Ok? ==>
      var q := res.value;
      && q.reg.ready == s.reg.ready
      && q.reg.running == s.reg.running - Elems(names)
      && q.reg.stopped == s.reg.stopped + Elems(names)
      && |q.stopCalls| >= |s.stopCalls| && q.stopCalls[..|s.stopCalls|] == s.stopCalls
      && Enumerates(q.stopCalls[|s.stopCalls|..], Elems(names) * (s.reg.running - s.reg.ready))
      && Evolves(s.reg, q.reg) && SameChannels(s, q)
    decreases |names|
  {
    if names == [] then
      EvolvesRefl(s.reg);
      assert s.stopCalls[|s.stopCalls|..] == [];
      Ok(s)
    else
      var n := names[0];
      assert Elems(names) == {n} + Elems(names[1..]);
      assert forall i :: 1 <= i < |names| ==> names[i] == names[1..][i - 1];
      match StopGivenName(s, n)
      case Err(e) => Err(e)
      case Ok(s1) =>
        var res := StopAllGivenNames(s1, names[1..]);
        if res.Err? then res
        else
          var q := res.value;
          EvolvesTrans(s.reg, s1.reg, q.reg);
          CascadeStops(s, s1, q, names);
          res
  }

  /** The bookkeeping of the stop calls made by one cascade step and the rest
      of the cascade. */
  lemma CascadeStops(s: State, s1: State, q: State, names: seq<string>)
    requires names != []
    requires s1.stopCalls == s.stopCalls + (if names[0] in s.reg.running - s.reg.ready then [names[0]] else [])
    requires s1.reg.ready == s.reg.ready && s1.reg.running == s.reg.running - {names[0]}
    requires |q.stopCalls| >= |s1.stopCalls| && q.stopCalls[..|s1.stopCalls|] == s1.stopCalls
    requires Enumerates(q.stopCalls[|s1.stopCalls|..], Elems(names[1..]) * (s1.reg.running - s1.reg.ready))
    ensures |q.stopCalls| >= |s.stopCalls| && q.stopCalls[..|s.stopCalls|] == s.stopCalls
    ensures Enumerates(q.stopCalls[|s.stopCalls|..], Elems(names) * (s.reg.running - s.reg.ready))
  {
    var n := names[0];
    var tail := q.stopCalls[|s1.stopCalls|..];
    var rest := Elems(names[1..]) * (s1.reg.running - s1.reg.ready);
    assert Elems(names) == {n} + Elems(names[1..]);
    if n in s.reg.running - s.reg.ready {
      assert q.stopCalls[|s.stopCalls|..] == [n] + tail;
      assert Enumerates([n], {n}) by {
        assert Elems([n]) == {n};
      }
      assert n !in Elems(tail);
      EnumeratesAppend([n], tail, {n}, rest);
      assert Elems(names) * (s.reg.running - s.reg.ready) == {n} + rest;
    } else {
      assert q.stopCalls[|s.stopCalls|..] == tail;
      assert Elems(names) * (s.reg.running - s.reg.ready) == rest;
    }
  }

  /** `StopGivenName` touches neither the terminate queue nor the batch, so
      it does not matter what they hold. */
  lemma StopGivenNameIgnoresQueues(s: State, n: string, b: seq<string>, t: seq<seq<string>>)
    ensures StopGivenName(s.(batch := b, terminate := t), n)
      == match StopGivenName(s, n)
         case Ok(q) => Ok(q.(batch := b, terminate := t))
         case Err(e) => Err(e)
  {
    var s' := s.(batch := b, terminate := t);
    match GetProcess(s.reg, n)
    case Err(e) =>
    case Ok(where) =>
      if where == Running {
        assert Stop(s', n) == Stop(s, n).(batch := b, terminate := t);
      }
  }

  // The task goroutines
  // -------------------

  /** Whether a task forwards its run error to the error channel. */
  predicate Forwards(p: Proc, err: Option<Error>, licensed: bool) {
    !p.ignoreError && err.Some? && !licensed
  }

  /** The start of a task as written: `wait()` returns once the wait list is
      empty, then `updateStatus(running)`, whatever the registry's `ready`
      says by then. `None` while the task is blocked, or when `name` has no
      waiting task. */
  function TaskStartAsWritten(s: State, name: string): (res: Option<State>)
    requires name in s.reg.procs
    ensures res.Some? <==> name in s.tasks && s.tasks[name] == Waiting && GateOpen(s.reg.procs[name])
    ensures res.Some? ==>
      var q := res.value;
      && q.reg.ready == s.reg.ready - {name}
      && q.reg.running == s.reg.running + {name}
      && q.reg.stopped == s.reg.stopped
      && q.tasks == s.tasks[name := Launched]
      && q == s.(reg := q.reg, tasks := q.tasks)
      && Evolves(s.reg, q.reg)
  {
    if name in s.tasks && s.tasks[name] == Waiting && GateOpen(s.reg.procs[name]) then
      var r := UpdateStatus(s.reg, name, "running").value;
      Some(s.(reg := r, tasks := s.tasks[name := Launched]))
    else None
  }

  /** The start of a task as intended: a process the registry no longer has
      in `ready` (`registry.shutdown` empties it "to avoid ready processes
      to start") does not start. */
  function TaskStart(s: State, name: string): (res: Option<State>)
    requires name in s.reg.procs
    ensures res.Some? <==> name in s.reg.ready && name in s.tasks && s.tasks[name] == Waiting && GateOpen(s.reg.procs[name])
    ensures res.Some? ==> res == TaskStartAsWritten(s, name)
  {
    if name in s.reg.ready then TaskStartAsWritten(s, name) else None
  }

  /** A task whose `run` returned `err`: the error is forwarded unless it is
      nil, the process ignores errors, or it is on the license-to-kill list. */
  function TaskReturn(s: State, name: string, err: Option<Error>): (q: State)
    requires name in s.reg.procs && name in s.tasks && s.tasks[name] == Launched
    ensures q.errors == s.errors + (if Forwards(s.reg.procs[name], err, IsAllowedToBeKilled(s.reg, name)) then [err] else [])
    ensures |q.errors| == |s.errors| + 1 <==> !s.reg.procs[name].ignoreError && err.Some? && name !in s.reg.licenseToKill
    ensures q.tasks == s.tasks[name := Returned]
    ensures q == s.(errors := q.errors, tasks := q.tasks)
  {
    var p := s.reg.procs[name];
    var errors := if Forwards(p, err, IsAllowedToBeKilled(s.reg, name)) then s.errors + [err] else s.errors;
    s.(errors := errors, tasks := s.tasks[name := Returned])
  }

  /** `close(proc.Done)`, which panics on a closed channel, then
      `updateStatus(stopped)`. */
  function TaskClose(s: State, name: string): (res: Result<State, string>)
    requires name in s.tasks && s.tasks[name] == Returned
    ensures res.Ok? <==> name !in s.done
    ensures res.Ok? ==>
      var q := res.value;
      && q.done == s.done + {name}
      && q.reg.ready == s.reg.ready
      && q.reg.running == s.reg.running - {name}
      && q.reg.stopped == s.reg.stopped + {name}
      && q.tasks == s.tasks[name := Closed]
      && q == s.(reg := q.reg, done := q.done, tasks := q.tasks)
      && Evolves(s.reg, q.reg)
  {
    if name in s.done then Err("close of closed channel")
    else
      var r := UpdateStatus(s.reg, name, "stopped").value;
      Ok(s.(reg := r, done := s.done + {name}, tasks := s.tasks[name := Closed]))
  }

  /** The task's last statement: its kill list goes on the terminate channel,
      whether or not its error was forwarded, and the goroutine ends. */
  function TaskSendKills(s: State, name: string): (q: State)
    requires name in s.reg.procs && name in s.tasks && s.tasks[name] == Closed
    ensures q.terminate == s.terminate + [s.reg.procs[name].kill]
    ensures q.tasks == s.tasks - {name}
    ensures q == s.(terminate := q.terminate, tasks := q.tasks)
  {
    s.(terminate := s.terminate + [WantedDeadOrDead(s.reg.procs[name])], tasks := s.tasks - {name})
  }

  // The terminator
  // --------------

  /** The names the terminator has still to go through: the rest of its batch,
      then every queued kill list in order. */
  function Pending(s: State): seq<string> {
    s.batch + Flatten(s.terminate)
  }

  /** The state without the terminator's work. */
  function Drained(s: State): State {
    s.(batch := [], terminate := [])
  }

  /** One action of `terminator`: go on with the next name of the current
      kill list, or receive the next kill list once the current one is done.
      Either way the pending names are consumed in order, one at a time. */
  function TerminatorStep(s: State): (res: Result<State, string>)
    requires s.batch != [] || s.terminate != []
    ensures res.Ok? <==> s.batch == [] || s.batch[0] in Known(s.reg)
    ensures s.batch == [] ==> res.Ok? && Pending(res.value) == Pending(s)
    ensures s.batch == [] ==>
      && res.value.batch == s.terminate[0] && res.value.terminate == s.terminate[1..]
      && res.value.reg == s.reg && res.value.stopCalls == s.stopCalls
    ensures s.batch != [] && res.Ok? ==>
      var q := res.value;
      var n := s.batch[0];
      && Pending(q) == Pending(s)[1..] && q.terminate == s.terminate
      && q.reg.ready == s.reg.ready
      && q.reg.running == s.reg.running - {n}
      && q.reg.stopped == s.reg.stopped + {n}
      && q.stopCalls == s.stopCalls + (if n in s.reg.running - s.reg.ready then [n] else [])
    ensures res.Ok? ==>
      var q := res.value;
      && |q.terminate| <= |s.terminate|
      && (|q.terminate| == |s.terminate| ==> |q.batch| < |s.batch|)
      && Drained(q) == Drained(s).(reg := q.reg, stopCalls := q.stopCalls)
      && Evolves(s.reg, q.reg)
  {
    if s.batch == [] then
      EvolvesRefl(s.reg);
      assert s.terminate == [s.terminate[0]] + s.terminate[1..];
      Ok(s.(batch := s.terminate[0], terminate := s.terminate[1..]))
    else
      assert Pending(s)[1..] == s.batch[1..] + Flatten(s.terminate);
      StopGivenName(s.(batch := s.batch[1..]), s.batch[0])
  }

  /** `terminator`: every queued kill list in turn through
      `stopAllGivenNames`. Doing it a name at a time is the same as one
      cascade over all the pending names: same registry, same stop calls, and
      a panic exactly when one of them is unknown. */
  function Terminator(s: State): (res: Result<State, string>)
    ensures res == StopAllGivenNames(Drained(s), Pending(s))
    decreases |s.terminate|, |s.batch|
  {
    if s.batch == [] && s.terminate == [] then
      assert Pending(s) == [];
      assert Drained(s) == s;
      Ok(s)
    else
      TerminatorStepCascades(s);
      match TerminatorStep(s)
      case Err(e) => Err(e)
      case Ok(s1) =>
        Terminator(s1)
  }

  /** A terminator step takes the first pending name through the cascade or
      receives a kill list: the cascade over what is pending afterwards is
      the rest of the cascade over what was pending before. */
  lemma TerminatorStepCascades(s: State)
    requires s.batch != [] || s.terminate != []
    ensures StopAllGivenNames(Drained(s), Pending(s))
      == match TerminatorStep(s)
         case Err(e) => Err(e)
         case Ok(s1) => StopAllGivenNames(Drained(s1), Pending(s1))
  {
    var ps := Pending(s);
    if s.batch != [] {
      var n := s.batch[0];
      assert ps[0] == n;
      assert ps[1..] == s.batch[1..] + Flatten(s.terminate);
      StopGivenNameIgnoresQueues(Drained(s), n, s.batch[1..], s.terminate);
      assert Drained(s).(batch := s.batch[1..], terminate := s.terminate) == s.(batch := s.batch[1..]);
    } else {
      assert s.terminate == [s.terminate[0]] + s.terminate[1..];
      assert ps == Flatten(s.terminate) == s.terminate[0] + Flatten(s.terminate[1..]);
    }
  }

  // Shutdown
  // --------

  /** `processor.shutdown`: guarded by the termination flag, so its body runs
      at most once. The body stops every ready process, then every running
      one (each listed once, in map order: `readyOrder`, `runningOrder`), and
      finally has the registry clear `ready` and signal the processes still
      running, of which none is left. */
  function Shutdown(s: State, readyOrder: seq<string>, runningOrder: seq<string>): (q: State)
    requires !s.termination ==> Enumerates(readyOrder, s.reg.ready)
    requires !s.termination ==> Enumerates(runningOrder, s.reg.running - s.reg.ready)
    ensures s.termination ==> q == s
    ensures !s.termination ==> ShutDown(s, q)
    ensures !s.termination ==> q.stopCalls == s.stopCalls + readyOrder + runningOrder
    ensures Evolves(s.reg, q.reg) && Counted(s, q)
  {
    if s.termination then
      EvolvesRefl(s.reg);
      s
    else
      ShutdownBody(s, readyOrder, runningOrder)
  }

  /** What the body of `shutdown` leaves behind: the flag set, nothing ready
      or running, every such process stopped by exactly one stop call, no
      observer waiting for a stopped process, and nothing else touched. */
  ghost predicate ShutDown(s: State, q: State) {
    && q.termination && q.shutdowns == s.shutdowns + 1
    && q.reg.ready == {} && q.reg.running == {}
    && q.reg.stopped == s.reg.stopped + s.reg.ready + s.reg.running
    && |q.stopCalls| >= |s.stopCalls| && q.stopCalls[..|s.stopCalls|] == s.stopCalls
    && Enumerates(q.stopCalls[|s.stopCalls|..], s.reg.ready + s.reg.running)
    && (s.reg.ready + s.reg.running != {} ==> Pruned(q.reg))
    && q == s.(reg := q.reg, termination := true, shutdowns := q.shutdowns, stopCalls := q.stopCalls)
  }

  /** How the shutdown count follows the termination flag across a step: it
      grows by one exactly when the flag gets set. */
  predicate Counted(s: State, q: State) {
    && (s.termination ==> q.termination && q.shutdowns == s.shutdowns)
    && (!s.termination ==> q.shutdowns == s.shutdowns + (if q.termination then 1 else 0))
  }

  function ShutdownBody(s: State, readyOrder: seq<string>, runningOrder: seq<string>): (q: State)
    requires !s.termination
    requires Enumerates(readyOrder, s.reg.ready)
    requires Enumerates(runningOrder, s.reg.running - s.reg.ready)
    ensures ShutDown(s, q) && Evolves(s.reg, q.reg) && Counted(s, q)
    ensures q.stopCalls == s.stopCalls + readyOrder + runningOrder
  {
    var s1 := s.(termination := true, shutdowns := s.shutdowns + 1);
    // the loop over the ready processes, then the one over the running ones
    var s3 := StopEach(s1, readyOrder + runningOrder);
    var final := ShutdownRegistry(s3.reg);
    var q := s3.(reg := final.reg);
    ShutdownFacts(s, s1, s3, q, readyOrder, runningOrder);
    q
  }

  lemma ShutdownFacts(s: State, s1: State, s3: State, q: State, readyOrder: seq<string>, runningOrder: seq<string>)
    requires !s.termination
    requires Enumerates(readyOrder, s.reg.ready)
    requires Enumerates(runningOrder, s.reg.running - s.reg.ready)
    requires s1 == s.(termination := true, shutdowns := s.shutdowns + 1)
    requires s3.stopCalls == s1.stopCalls + (readyOrder + runningOrder)
    requires s3.reg.ready == s1.reg.ready
    requires s3.reg.running == s1.reg.running - Elems(readyOrder + runningOrder)
    requires s3.reg.stopped == s1.reg.stopped + Elems(readyOrder + runningOrder)
    requires Evolves(s1.reg, s3.reg) && SameChannels(s1, s3)
    requires readyOrder + runningOrder != [] ==> Pruned(s3.reg)
    requires q == s3.(reg := ShutdownRegistry(s3.reg).reg)
    ensures ShutDown(s, q) && Evolves(s.reg, q.reg) && Counted(s, q)
  {
    EnumeratesAppend(readyOrder, runningOrder, s.reg.ready, s.reg.running - s.reg.ready);
    assert s3.reg.running == {};
    EvolvesRefl(s3.reg);
    assert Evolves(s3.reg, q.reg);
    EvolvesTrans(s.reg, s3.reg, q.reg);
    assert q.stopCalls[|s.stopCalls|..] == readyOrder + runningOrder;
    assert s.reg.ready + (s.reg.running - s.reg.ready) == s.reg.ready + s.reg.running;
    if s.reg.ready + s.reg.running != {} {
      var x :| x in s.reg.ready + s.reg.running;
      assert x in Elems(readyOrder + runningOrder);
    }
  }

  /** The first non-nil error of a stream. */
  function FirstError(errs: seq<Option<Error>>): Option<Error> {
    if errs == [] then None else if errs[0].Some? then errs[0] else FirstError(errs[1..])
  }

  datatype Handled = Handled(state: State, handled: bool, logged: seq<Error>)

  /** `handleErrors` over a stream of received values, with its local flag
      `handled`: nil errors are skipped; the first non-nil one is logged unless
      it is `context.Canceled` and triggers `shutdown`; every later one is
      ignored. */
  function HandleErrors(s: State, handled: bool, errs: seq<Option<Error>>, readyOrder: seq<string>, runningOrder: seq<string>): (h: Handled)
    requires !s.termination ==> Enumerates(readyOrder, s.reg.ready)
    requires !s.termination ==> Enumerates(runningOrder, s.reg.running - s.reg.ready)
    ensures handled || FirstError(errs).None? ==> h == Handled(s, handled, [])
    ensures !handled && FirstError(errs).Some? ==>
      && h.state == Shutdown(s, readyOrder, runningOrder)
      && h.handled
      && h.logged == (if FirstError(errs).value == Canceled then [] else [FirstError(errs).value])
    decreases |errs|
  {
    if errs == [] then Handled(s, handled, [])
    else if errs[0].None? || handled then HandleErrors(s, handled, errs[1..], readyOrder, runningOrder)
    else
      var logged := if errs[0].value != Canceled then [errs[0].value] else [];
      var after := Shutdown(s, readyOrder, runningOrder);
      var h := HandleErrors(after, true, errs[1..], readyOrder, runningOrder);
      Handled(h.state, true, logged + h.logged)
  }

  /** Whatever the handler receives, it runs the shutdown at most once and
      logs at most one error. */
  lemma HandleErrorsOnce(s: State, errs: seq<Option<Error>>, readyOrder: seq<string>, runningOrder: seq<string>)
    requires !s.termination
    requires Enumerates(readyOrder, s.reg.ready) && Enumerates(runningOrder, s.reg.running - s.reg.ready)
    ensures var h := HandleErrors(s, false, errs, readyOrder, runningOrder);
      && h.state.shutdowns <= s.shutdowns + 1
      && |h.logged| <= 1
      && (FirstError(errs).Some? <==> h.state.termination)
  {
  }


  /** One pass of `handleErrors`' loop: the next queued error is received and
      handled. A nil error, or any error once the handler has shut down,
      changes nothing else; the first non-nil one is logged unless it is
      `context.Canceled`, and triggers `shutdown`. */
  function ReceiveOne(s: State, readyOrder: seq<string>, runningOrder: seq<string>): (q: State)
    requires s.errors != []
    requires !s.termination ==> Enumerates(readyOrder, s.reg.ready)
    requires !s.termination ==> Enumerates(runningOrder, s.reg.running - s.reg.ready)
    ensures q.errors == s.errors[1..]
    ensures q.handled == (s.handled || s.errors[0].Some?)
    ensures s.handled || s.errors[0].None? ==> q == s.(errors := s.errors[1..])
    ensures !s.handled && s.errors[0].Some? ==>
      && q.errorLog == s.errorLog + (if s.errors[0].value == Canceled then [] else [s.errors[0].value])
      && (!s.termination ==> ShutDown(s, q.(errors := s.errors, handled := s.handled, errorLog := s.errorLog)))
      && (s.termination ==> q.reg == s.reg && q.stopCalls == s.stopCalls && q.shutdowns == s.shutdowns)
    ensures Evolves(s.reg, q.reg) && Counted(s, q)
  {
    var s1 := s.(errors := s.errors[1..]);
    var h := HandleErrors(s1, s.handled, [s.errors[0]], readyOrder, runningOrder);
    assert [s.errors[0]][1..] == [];
    assert Evolves(s.reg, h.state.reg) && Counted(s, h.state) by {
      if s.handled || s.errors[0].None? { EvolvesRefl(s.reg); }
    }
    h.state.(handled := h.handled, errorLog := s.errorLog + h.logged)
  }

  // Whole runs
  // ----------

  /** One scheduling step of some goroutine. */
  datatype Step =
    | Start(name: string)                         // a task passes `wait()`
    | Return(name: string, err: Option<Error>)    // a task's `run` returned `err`
    | Close(name: string)                         // a task closes `Done` and marks itself stopped
    | SendKills(name: string)                     // a task sends its kill list
    | Terminate                                   // the terminator's next action
    | ReceiveError(readyOrder: seq<string>, runningOrder: seq<string>)  // the error handler receives one error

  /** Which start a run's tasks use: the program's (`TaskStartAsWritten`)
      or the corrected one (`TaskStart`). Every other step is the same. */
  datatype Variant = AsWritten | Corrected

  /** Once the termination flag is set, nothing is ready or running. */
  predicate Settled(s: State) {
    s.termination ==> s.reg.ready == {} && s.reg.running == {}
  }

  /** The effect of a step; `None` when it is not enabled (a blocked task, a
      step of a task that is not at that point, an empty channel, an
      enumeration that does not list the map) or when it panics. */
  function Apply(v: Variant, s: State, step: Step): (res: Option<State>)
    ensures res.Some? ==> Evolves(s.reg, res.value.reg) && Counted(s, res.value)
    ensures res.Some? && Settled(s) && v == Corrected ==> Settled(res.value)
  {
    match step
    case Start(name) =>
      if name !in s.reg.procs then None
      else if v == Corrected then TaskStart(s, name)
      else TaskStartAsWritten(s, name)
    case Return(name, err) =>
      if name in s.reg.procs && name in s.tasks && s.tasks[name] == Launched then
        EvolvesRefl(s.reg);
        Some(TaskReturn(s, name, err))
      else None
    case Close(name) =>
      if name in s.tasks && s.tasks[name] == Returned then
        (match TaskClose(s, name)
         case Ok(q) => Some(q)
         case Err(_) => None)
      else None
    case SendKills(name) =>
      if name in s.reg.procs && name in s.tasks && s.tasks[name] == Closed then
        EvolvesRefl(s.reg);
        Some(TaskSendKills(s, name))
      else None
    case Terminate =>
      if s.batch == [] && s.terminate == [] then None
      else
        (match TerminatorStep(s)
         case Ok(q) => Some(q)
         case Err(_) => None)
    case ReceiveError(readyOrder, runningOrder) =>
      if s.errors != [] && (s.termination || (Enumerates(readyOrder, s.reg.ready) && Enumerates(runningOrder, s.reg.running - s.reg.ready))) then
        Some(ReceiveOne(s, readyOrder, runningOrder))
      else None
  }

  /** A run: the steps in order, a step that is not enabled doing nothing. */
  function Execute(v: Variant, s: State, steps: seq<Step>): State
    decreases |steps|
  {
    if steps == [] then s
    else match Apply(v, s, steps[0])
      case None => Execute(v, s, steps[1..])
      case Some(q) => Execute(v, q, steps[1..])
  }

  /** Every run only ever moves the registry forward. */
  lemma {:induction false} ExecuteEvolves(v: Variant, s: State, steps: seq<Step>)
    ensures Evolves(s.reg, Execute(v, s, steps).reg)
    decreases |steps|
  {
    if steps == [] {
      EvolvesRefl(s.reg);
    } else {
      match Apply(v, s, steps[0])
      case None =>
        ExecuteEvolves(v, s, steps[1..]);
      case Some(q) =>
        ExecuteEvolves(v, q, steps[1..]);
        EvolvesTrans(s.reg, q.reg, Execute(v, q, steps[1..]).reg);
    }
  }

  /** In every run the shutdown body runs at most once, and only once the
      termination flag is set. */
  lemma {:induction false} ExecuteShutsDownOnce(v: Variant, s: State, steps: seq<Step>)
    requires s.shutdowns <= (if s.termination then 1 else 0)
    ensures var q := Execute(v, s, steps); q.shutdowns <= (if q.termination then 1 else 0)
    decreases |steps|
  {
    if steps != [] {
      match Apply(v, s, steps[0])
      case None =>
        ExecuteShutsDownOnce(v, s, steps[1..]);
      case Some(q) =>
        ExecuteShutsDownOnce(v, q, steps[1..]);
    }
  }

  /** Every run with the corrected start keeps `Settled`. */
  lemma {:induction false} ExecuteSettled(s: State, steps: seq<Step>)
    requires Settled(s)
    ensures Settled(Execute(Corrected, s, steps))
    decreases |steps|
  {
    if steps != [] {
      match Apply(Corrected, s, steps[0])
      case None =>
        ExecuteSettled(s, steps[1..]);
      case Some(q) =>
        ExecuteSettled(q, steps[1..]);
    }
  }

  /** The dependency gate, end to end: in any run of the registered
      configuration `ps`, a task passes `wait()` only once every process in
      its configured wait list is in `stopped`. This holds for the start as
      written, and so for the corrected one, which starts less often. */
  lemma StartsOnlyAfterPrerequisitesStop(v: Variant, ps: seq<Proc>, steps: seq<Step>, name: string)
    requires name in WaitConfig(ps)
    ensures var s := Execute(v, Perform(RegisterAll(ps)), steps);
      name in s.reg.procs &&
      (TaskStartAsWritten(s, name).Some? ==> forall x :: x in WaitConfig(ps)[name] ==> x in s.reg.stopped)
  {
    var r := RegisterAll(ps);
    var s := Execute(v, Perform(r), steps);
    RegisterAllProcs(ps);
    RegisteredGateSound(ps);
    ExecuteEvolves(v, Perform(r), steps);
    GateSoundEvolves(WaitConfig(ps), r, s.reg);
  }

  /** In any run of the registered configuration, with either start, the
      shutdown body runs at most once. */
  lemma ShutdownAtMostOnce(v: Variant, ps: seq<Proc>, steps: seq<Step>)
    ensures Execute(v, Perform(RegisterAll(ps)), steps).shutdowns <= 1
  {
    ExecuteShutsDownOnce(v, Perform(RegisterAll(ps)), steps);
  }

  /** With the intended start, shutdown is final: in any run of the
      registered configuration, once the flag is set nothing is ready or
      running and no task can start any more. */
  lemma NothingStartsAfterShutdown(ps: seq<Proc>, steps: seq<Step>, name: string)
    requires name in RegisterAll(ps).procs
    ensures var s := Execute(Corrected, Perform(RegisterAll(ps)), steps);
      && name in s.reg.procs
      && (s.termination ==> s.reg.ready == {} && s.reg.running == {} && TaskStart(s, name).None?)
  {
    var s := Execute(Corrected, Perform(RegisterAll(ps)), steps);
    ExecuteSettled(Perform(RegisterAll(ps)), steps);
    ExecuteEvolves(Corrected, Perform(RegisterAll(ps)), steps);
  }

  /** As written, a shutdown releases the tasks still waiting: it marks every
      process stopped, which empties every observer's wait list, and the
      start does not look at `ready`. So the first error received while a
      task waits for a process that is ready or running has the waiting
      process started after the shutdown, and it stays running. */
  lemma WaitingTaskStartsAfterShutdown(s: State, readyOrder: seq<string>, runningOrder: seq<string>, name: string)
    requires s.errors != [] && s.errors[0].Some? && !s.handled && !s.termination
    requires Enumerates(readyOrder, s.reg.ready) && Enumerates(runningOrder, s.reg.running - s.reg.ready)
    requires name in s.tasks && s.tasks[name] == Waiting
    requires name in s.reg.ready && name in s.reg.procs && name in s.reg.observers
    requires forall x :: x in s.reg.procs[name].wait ==> x in Known(s.reg)
    ensures var q := ReceiveOne(s, readyOrder, runningOrder);
      && q.termination && q.reg.ready == {} && q.reg.running == {}
      && name in q.reg.procs
      && TaskStartAsWritten(q, name).Some?
      && TaskStart(q, name).None?
      && name in TaskStartAsWritten(q, name).value.reg.running
      && TaskStartAsWritten(q, name).value.termination
  {
    var q := ReceiveOne(s, readyOrder, runningOrder);
    var q' := q.(errors := s.errors, handled := s.handled, errorLog := s.errorLog);
    assert ShutDown(s, q');
    assert q'.reg == q.reg && q'.tasks == q.tasks && q.termination;
    assert name in s.reg.ready + s.reg.running;
    ShutdownOpensGates(s, q', name);
  }

  /** The same as a run of the program: the handler's step, then the
      waiting task's start, leave that task running after shutdown. So
      `Settled` holds before and fails after: the program's runs do not keep
      it. */
  lemma AsWrittenRunUnsettles(s: State, readyOrder: seq<string>, runningOrder: seq<string>, name: string)
    requires s.errors != [] && s.errors[0].Some? && !s.handled && !s.termination
    requires Enumerates(readyOrder, s.reg.ready) && Enumerates(runningOrder, s.reg.running - s.reg.ready)
    requires name in s.tasks && s.tasks[name] == Waiting
    requires name in s.reg.ready && name in s.reg.procs && name in s.reg.observers
    requires forall x :: x in s.reg.procs[name].wait ==> x in Known(s.reg)
    ensures var q := Execute(AsWritten, s, [ReceiveError(readyOrder, runningOrder), Start(name)]);
      Settled(s) && q.termination && name in q.reg.running && !Settled(q)
  {
    var steps := [ReceiveError(readyOrder, runningOrder), Start(name)];
    WaitingTaskStartsAfterShutdown(s, readyOrder, runningOrder, name);
    var q1 := ReceiveOne(s, readyOrder, runningOrder);
    ApplyReceives(AsWritten, s, readyOrder, runningOrder);
    var q2 := TaskStartAsWritten(q1, name).value;
    assert Apply(AsWritten, q1, steps[1..][0]) == Some(q2);
    assert steps[1..][1..] == [];
    assert Execute(AsWritten, q1, steps[1..]) == Execute(AsWritten, q2, []);
  }

  /** The handler's step, when it has an error and the enumerations list
      the partitions, is `ReceiveOne`. */
  lemma ApplyReceives(v: Variant, s: State, readyOrder: seq<string>, runningOrder: seq<string>)
    requires s.errors != []
    requires Enumerates(readyOrder, s.reg.ready) && Enumerates(runningOrder, s.reg.running - s.reg.ready)
    ensures Apply(v, s, ReceiveError(readyOrder, runningOrder)) == Some(ReceiveOne(s, readyOrder, runningOrder))
  {
  }

  /** The configuration of the run below: `b` waits for `c`. */
  function ExampleConfig(): seq<Proc> {
    [Proc("c", [], [], "", "", map[], "", false, 0), Proc("b", ["c"], [], "", "", map[], "", false, 0)]
  }

  lemma ExampleRegistered()
    ensures var r := RegisterAll(ExampleConfig());
      && r.ready == {"c", "b"} && r.running == {} && r.stopped == {}
      && r.procs.Keys == {"c", "b"} && r.observers == ["c", "b"] && r.licenseToKill == []
      && r.procs["c"].wait == [] && r.procs["b"].wait == ["c"] && !r.procs["c"].ignoreError
  {
    var ps := ExampleConfig();
    assert ps[..1] == [ps[0]] && ps[..1][..0] == [];
    var r1 := Register(NewRegistry(), ps[0]);
    assert RegisterAll(ps[..1]) == r1;
    assert RegisterAll(ps) == Register(r1, ps[1]);
  }

  /** The run that shows it: `b` waits for `c`; `c` starts and fails, the
      handler receives the error and shuts down, and then `b` starts. */
  lemma WaitingTaskStartsAfterShutdownExample()
    ensures Enumerates(["b"], ExampleFailed().reg.ready)
    ensures Enumerates(["c"], ExampleFailed().reg.running - ExampleFailed().reg.ready)
    ensures var q := ReceiveOne(ExampleFailed(), ["b"], ["c"]);
      && q.termination && q.reg.ready == {} && q.reg.running == {}
      && "b" in q.reg.procs
      && TaskStartAsWritten(q, "b").Some?
      && "b" in TaskStartAsWritten(q, "b").value.reg.running
  {
    var s2 := ExampleFailed();
    ExampleFailedWaits();
    WaitingTaskStartsAfterShutdown(s2, ["b"], ["c"], "b");
  }

  /** In that state `b` still waits, for a known process, and the handler
      has one error to receive. */
  lemma ExampleFailedWaits()
    ensures var s2 := ExampleFailed();
      && s2.errors != [] && s2.errors[0].Some? && !s2.handled && !s2.termination
      && Enumerates(["b"], s2.reg.ready) && Enumerates(["c"], s2.reg.running - s2.reg.ready)
      && "b" in s2.tasks && s2.tasks["b"] == Waiting
      && "b" in s2.reg.ready && "b" in s2.reg.procs && "b" in s2.reg.observers
      && (forall x :: x in s2.reg.procs["b"].wait ==> x in Known(s2.reg))
  {
    var r1 := ExampleRunning();
    ExampleRunningReg();
    assert Enumerates(["b"], {"b"}) by { assert Elems(["b"]) == {"b"}; }
    assert Enumerates(["c"], {"c"}) by { assert Elems(["c"]) == {"c"}; }
    assert r1.running - r1.ready == {"c"};
    assert "c" in Known(r1);
    assert "b" in r1.observers by { assert r1.observers[1] == "b"; }
  }

  /** The registry once `c` has been marked running. */
  function ExampleRunning(): Reg {
    UpdateStatus(RegisterAll(ExampleConfig()), "c", "running").value
  }

  lemma ExampleRunningReg()
    ensures var r1 := ExampleRunning();
      && r1.ready == {"b"} && r1.running == {"c"} && r1.stopped == {}
      && "c" in r1.procs && "b" in r1.procs && r1.observers == ["c", "b"] && r1.licenseToKill == []
      && r1.procs["b"].wait == ["c"] && !r1.procs["c"].ignoreError
  {
    var r := RegisterAll(ExampleConfig());
    ExampleRegistered();
    var m := MarkRunning(r, "c");
    assert UpdateStatus(r, "c", "running") == Ok(Publish(m));
    assert Publish(m).procs["b"] == Update(m.procs["b"], Status(m));
    assert Status(m).stopped == {};
    PruneNothing(["c"], {});
  }

  /** `c` has started from the registered configuration. */
  function ExampleStarted(): (s: State)
    ensures s.reg == ExampleRunning()
    ensures "c" in s.tasks && s.tasks["c"] == Launched && "b" in s.tasks && s.tasks["b"] == Waiting
    ensures s.errors == [] && !s.termination && !s.handled
  {
    var r := RegisterAll(ExampleConfig());
    ExampleRegistered();
    var s0 := Perform(r);
    assert "c" in s0.tasks && s0.tasks["c"] == Waiting;
    assert GateOpen(s0.reg.procs["c"]);
    TaskStart(s0, "c").value
  }

  /** ... and its `run` has returned an error, now queued for the handler. */
  function ExampleFailed(): (s: State)
    ensures s.reg == ExampleRunning()
    ensures "b" in s.tasks && s.tasks["b"] == Waiting
    ensures s.errors == [Some(Failure("exit status 1"))] && !s.termination && !s.handled
  {
    var s1 := ExampleStarted();
    var err := Some(Failure("exit status 1"));
    ExampleRunningReg();
    assert s1.reg.licenseToKill == [] && !IsAllowedToBeKilled(s1.reg, "c");
    assert Forwards(s1.reg.procs["c"], err, false);
    var q := TaskReturn(s1, "c", err);
    assert q.reg == s1.reg && q.tasks["b"] == s1.tasks["b"];
    q
  }

  /** After the shutdown body every known process is stopped, so a process
      whose wait list named only known processes waits for nothing. */
  lemma ShutdownOpensGates(s: State, q: State, name: string)
    requires ShutDown(s, q) && Evolves(s.reg, q.reg)
    requires s.reg.ready + s.reg.running != {}
    requires name in s.reg.procs && name in s.reg.observers
    requires forall x :: x in s.reg.procs[name].wait ==> x in Known(s.reg)
    ensures name in q.reg.procs && GateOpen(q.reg.procs[name])
  {
    var w := q.reg.procs[name].wait;
    assert Pruned(q.reg);
    SubsequenceMembers(w, s.reg.procs[name].wait);
    assert forall x :: x in w ==> x in q.reg.stopped;
    assert Elems(w) == {};
    ElemsEmpty(w);
  }

  // Display padding
  // ---------------

  /** `getPadding`: the longest process name over `processes()`, 0 when
      there is none. */
  method GetPadding(r: Reg) returns (length: nat)
    ensures forall n :: n in Processes(r) ==> |n| <= length
    ensures Processes(r) == multiset{} ==> length == 0
    ensures Processes(r) != multiset{} ==> exists n :: n in Processes(r) && |n| == length
    ensures length == MaxLen(Processes(r))
  {
    var all := Processes(r);
    var rest := all;
    length := 0;
    while rest != multiset{}
      invariant rest <= all
      invariant forall n :: n in all && n !in rest ==> |n| <= length
      invariant forall n :: n in rest && rest[n] < all[n] ==> |n| <= length
      invariant rest == all ==> length == 0
      invariant rest != all ==> exists n :: n in all && |n| == length
      decreases |rest|
    {
      var n :| n in rest;
      if |n| > length {
        length := |n|;
      }
      rest := rest - multiset{n};
    }
    MaxLenBounds(all);
    assert length == MaxLen(all) by {
      if all != multiset{} {
        var a :| a in all && |a| == length;
        var b :| b in all && |b| == MaxLen(all);
        assert |a| <= MaxLen(all) && |b| <= length;
      }
    }
  }

  /** The longest length among the names, 0 for none: what `getPadding`
      computes, defined without its loop. */
  ghost function MaxLen(names: multiset<string>): nat
    decreases |names|
  {
    if names == multiset{} then 0
    else
      var n :| n in names;
      var rest := MaxLen(names - multiset{n});
      if |n| > rest then |n| else rest
  }

  /** `MaxLen` bounds every name and is the length of one of them. */
  lemma {:induction false} MaxLenBounds(names: multiset<string>)
    ensures forall n :: n in names ==> |n| <= MaxLen(names)
    ensures names != multiset{} ==> exists n :: n in names && |n| == MaxLen(names)
    decreases |names|
  {
    if names != multiset{} {
      var n :| n in names && MaxLen(names) == (if |n| > MaxLen(names - multiset{n}) then |n| else MaxLen(names - multiset{n}));
      var rest := names - multiset{n};
      MaxLenBounds(rest);
      forall m | m in names ensures |m| <= MaxLen(names) {
        if m != n { assert m in rest; }
      }
      if rest != multiset{} && |n| <= MaxLen(rest) {
        var m :| m in rest && |m| == MaxLen(rest);
        assert m in names;
      }
    }
  }

  /** `fmt.Sprintf("%<width>s", name)`: right-aligned in `width` columns with
      spaces on the left; a longer name is not cut. */
  function FormatPadded(name: string, width: nat): (r: string)
    ensures |name| >= width ==> r == name
    ensures |name| < width ==>
      && |r| == width && r[width - |name|..] == name
      && forall i :: 0 <= i < width - |name| ==> r[i] == ' '
  {
    if |name| >= width then name else seq(width - |name|, _ => ' ') + name
  }

  /** With the width `getPadding` computes, every process's padded name has
      exactly that width and ends with the name: the log prefixes line up. */
  lemma PaddedNamesAligned(r: Reg, n: string)
    requires n in Processes(r)
    ensures var padded := FormatPadded(n, MaxLen(Processes(r)));
      |padded| == MaxLen(Processes(r)) && padded[|padded| - |n|..] == n
  {
    MaxLenBounds(Processes(r));
  }
}

=== FILE: regex.dfy ===
/** The regular-expression engine, left uninterpreted: a compiled pattern is
    a matching function returning capture spans, and the list of its
    subexpression names. Only the guarantees Go's `regexp` package documents
    are assumed of it. */
module Regex {

  /** The half-open byte range `[lo, hi)` of a capture within the subject. An
      unmatched optional group is the empty span `[0, 0)`. */
  datatype Span = Span(lo: nat, hi: nat)

  datatype Pattern = Pattern(find: string -> seq<Span>, names: seq<string>)

  /** A match is absent (no element) or has one span per subexpression, each
      inside the subject. */
  predicate ValidMatch(m: seq<Span>, subject: string, count: nat) {
    && (|m| == 0 || |m| == count)
    && forall i :: 0 <= i < |m| ==> m[i].lo <= m[i].hi <= |subject|
  }

  /** `SubexpNames()[0]` is the whole match and always unnamed; every match
      has the shape above. */
  ghost predicate Valid(p: Pattern) {
    && |p.names| >= 1
    && p.names[0] == ""
    && forall s :: ValidMatch(p.find(s), s, |p.names|)
  }

  type Regexp = p: Pattern | Valid(p) witness Pattern(s => [], [""])

  /** `re.SubexpNames()`. */
  function SubexpNames(re: Regexp): seq<string> {
    re.names
  }

  /** `re.FindStringSubmatch(s)`: the captured substrings, or the empty list
      when there is no match. */
  function FindStringSubmatch(re: Regexp, s: string): (m: seq<string>)
    ensures |m| == 0 || |m| == |SubexpNames(re)|
    ensures |m| == |re.find(s)|
    ensures forall i :: 0 <= i < |m| ==> m[i] == s[re.find(s)[i].lo..re.find(s)[i].hi]
  {
    var spans := re.find(s);
    assert ValidMatch(spans, s, |re.names|);
    seq(|spans|, i requires 0 <= i < |spans| => s[spans[i].lo..spans[i].hi])
  }
}

=== FILE: registry.dfy ===
/** registry.go: the authoritative lifecycle store. Every registered process
    lives in `procs` under its name (the objects the partitions point to); the
    three partitions are sets of names. Every state change publishes the new
    snapshot to the registered processes' `update` observers. */
module Registry {
  import opened Wrappers
  import opened Seqs
  import opened Process
  import Observer

  datatype Reg = Reg(
    procs: map<string, Proc>,
    ready: set<string>,
    running: set<string>,
    stopped: set<string>,
    licenseToKill: seq<string>,
    observers: seq<string>)   // the processes whose `update` is attached, in order

  /** The state label `getProcess` reports. */
  datatype Label = Ready | Running | Stopped

  /** `newRegistry`: no process is known and nobody may be killed. */
  function NewRegistry(): (r: Reg)
    ensures r.ready == {} && r.running == {} && r.stopped == {}
    ensures r.procs == map[] && r.observers == []
    ensures forall n :: !IsAllowedToBeKilled(r, n)
  {
    Reg(map[], {}, {}, {}, [], [])
  }

  /** `register`: attach the process's `update` as an observer, put it in
      `ready` and append its `kill` hooks to the license-to-kill list. */
  function Register(r: Reg, p: Proc): (r': Reg)
    ensures r'.ready == r.ready + {p.name} && r'.running == r.running && r'.stopped == r.stopped
    ensures r'.procs == r.procs[p.name := p]
    ensures r'.licenseToKill == r.licenseToKill + p.kill
    ensures |r'.observers| == |r.observers| + 1 && r'.observers[..|r.observers|] == r.observers
    ensures r'.observers[|r.observers|] == p.name
  {
    r.(observers := Observer.Attach(r.observers, p.name),
       procs := r.procs[p.name := p],
       ready := r.ready + {p.name},
       licenseToKill := r.licenseToKill + p.kill)
  }

  /** `status()`: the snapshot of the partitions and the license list. */
  function Status(r: Reg): (st: Observer.Status)
    ensures forall x :: (x in st.ready <==> x in r.ready) && (x in st.running <==> x in r.running) && (x in st.stopped <==> x in r.stopped)
    ensures st.licenseToKill == r.licenseToKill
  {
    Observer.Status(r.ready, r.running, r.stopped, r.licenseToKill)
  }

  /** The observer `observerFunc(p.update)` registered for `name`. */
  function NotifyProc(name: string, status: Observer.Status, procs: map<string, Proc>): map<string, Proc> {
    if name in procs then procs[name := Update(procs[name], status)] else procs
  }

  lemma UpdateIdempotent(p: Proc, status: Observer.Status)
    ensures Update(Update(p, status), status) == Update(p, status)
  {
    PruneTwice(p.wait, status.stopped, status.stopped);
    assert status.stopped + status.stopped == status.stopped;
  }

  /** Fanning a snapshot out to the observers updates every observing
      process once (a second notification changes nothing more) and leaves
      the others alone. */
  lemma {:induction false} NotifyAll(observers: seq<string>, status: Observer.Status, procs: map<string, Proc>)
    ensures var r := Observer.Publish(observers, NotifyProc, status, procs);
      && r.Keys == procs.Keys
      && forall n :: n in procs ==> r[n] == if n in observers then Update(procs[n], status) else procs[n]
    decreases |observers|
  {
    if observers != [] {
      var procs1 := NotifyProc(observers[0], status, procs);
      NotifyAll(observers[1..], status, procs1);
      forall n | n in procs && n == observers[0]
        ensures Update(procs1[n], status) == Update(procs[n], status)
      {
        UpdateIdempotent(procs[n], status);
      }
      assert forall n :: n in observers <==> n == observers[0] || n in observers[1..];
    }
  }

  /** `r.publish(r.status())`. */
  function Publish(r: Reg): (r': Reg)
    ensures r' == r.(procs := r'.procs) && r'.procs.Keys == r.procs.Keys
    ensures forall n :: n in r.procs ==>
      r'.procs[n] == if n in r.observers then Update(r.procs[n], Status(r)) else r.procs[n]
  {
    NotifyAll(r.observers, Status(r), r.procs);
    r.(procs := Observer.Publish(r.observers, NotifyProc, Status(r), r.procs))
  }

  /** The locked part of `updateStatus(p, "running")`. */
  function MarkRunning(r: Reg, name: string): Reg {
    r.(ready := r.ready - {name}, running := r.running + {name})
  }

  /** The locked part of `updateStatus(p, "stopped")`: only `running` loses
      the name. */
  function MarkStopped(r: Reg, name: string): Reg {
    r.(running := r.running - {name}, stopped := r.stopped + {name})
  }

  function ToRunning(r: Reg, name: string): Reg {
    Publish(MarkRunning(r, name))
  }

  function ToStopped(r: Reg, name: string): Reg {
    Publish(MarkStopped(r, name))
  }

  /** No observing process still waits for a stopped name. */
  ghost predicate Pruned(r: Reg) {
    forall n, x :: n in r.observers && n in r.procs && x in r.procs[n].wait ==> x !in r.stopped
  }

  /** The process record `q` is `p` up to its wait list. */
  predicate SameConfig(p: Proc, q: Proc) {
    p.(wait := []) == q.(wait := [])
  }

  /** `q` is a later state of `r`: nothing un-stops, the same processes are
      known, and wait lists only lose names, each of them a stopped one,
      keeping the order of the rest. */
  ghost predicate Evolves(r: Reg, q: Reg) {
    && r.stopped <= q.stopped
    && q.procs.Keys == r.procs.Keys
    && q.licenseToKill == r.licenseToKill
    && q.observers == r.observers
    && forall n :: n in r.procs ==>
      && SameConfig(r.procs[n], q.procs[n])
      && IsSubsequence(q.procs[n].wait, r.procs[n].wait)
      && forall x :: x in r.procs[n].wait && x !in q.procs[n].wait ==> x in q.stopped
  }

  lemma EvolvesRefl(r: Reg)
    ensures Evolves(r, r)
  {
    forall n | n in r.procs
      ensures IsSubsequence(r.procs[n].wait, r.procs[n].wait)
    {
      SubsequenceRefl(r.procs[n].wait);
    }
  }

  lemma EvolvesTrans(r: Reg, q: Reg, u: Reg)
    requires Evolves(r, q) && Evolves(q, u)
    ensures Evolves(r, u)
  {
    forall n | n in r.procs
      ensures IsSubsequence(u.procs[n].wait, r.procs[n].wait)
    {
      SubsequenceTrans(u.procs[n].wait, q.procs[n].wait, r.procs[n].wait);
    }
  }

  lemma PublishEvolves(r: Reg)
    ensures Evolves(r, Publish(r)) && Pruned(Publish(r))
  {
    var q := Publish(r);
    forall n | n in r.procs
      ensures IsSubsequence(q.procs[n].wait, r.procs[n].wait)
    {
      if n !in r.observers {
        SubsequenceRefl(r.procs[n].wait);
      }
    }
  }

  /** `updateStatus`: the partition change under the lock, then the snapshot
      published to every observer. "running" takes the name out of `ready`
      into `running`; "stopped" takes it out of `running` only into
      `stopped`; any other status panics. */
  function UpdateStatus(r: Reg, name: string, status: string): (res: Result<Reg, string>)
    ensures res.Ok? <==> status == "running" || status == "stopped"
    ensures status == "running" ==>
      && res.Ok?
      && res.value.ready == r.ready - {name}
      && res.value.running == r.running + {name}
      && res.value.stopped == r.stopped
    ensures status == "stopped" ==>
      && res.Ok?
      && res.value.ready == r.ready
      && res.value.running == r.running - {name}
      && res.value.stopped == r.stopped + {name}
    ensures res.Ok? ==> Evolves(r, res.value) && Pruned(res.value)
  {
    if status == "running" then
      PublishEvolves(MarkRunning(r, name));
      Ok(ToRunning(r, name))
    else if status == "stopped" then
      PublishEvolves(MarkStopped(r, name));
      Ok(ToStopped(r, name))
    else Err("Unsupported status")
  }

  /** The snapshot is published after the partition change: the name that
      just stopped has left every observer's wait list. Publishing the old
      snapshot instead would leave it there. */
  lemma StoppedNameLeavesWaitLists(r: Reg, name: string, n: string)
    requires n in r.observers && n in r.procs
    ensures var q := UpdateStatus(r, name, "stopped").value;
      n in q.procs && name !in q.procs[n].wait
  {
  }

  // Invariants along the transitions
  // --------------------------------

  /** Each name is in at most one partition. */
  predicate Disjoint(r: Reg) {
    r.ready !! r.running && r.ready !! r.stopped && r.running !! r.stopped
  }

  /** Disjointness survives the two transitions the lifecycle intends,
      ready -> running and running -> stopped. */
  lemma TransitionsKeepDisjoint(r: Reg, name: string)
    requires Disjoint(r)
    ensures name in r.ready ==> Disjoint(UpdateStatus(r, name, "running").value)
    ensures name in r.running ==> Disjoint(UpdateStatus(r, name, "stopped").value)
  {
  }

  /** A ready process marked "stopped" (a kill hook or the shutdown reaching
      it before it started) stays in `ready` as well: disjointness breaks. */
  lemma ReadyToStoppedStaysReady(r: Reg, name: string)
    requires name in r.ready
    ensures var q := UpdateStatus(r, name, "stopped").value;
      name in q.ready && name in q.stopped && !Disjoint(q)
  {
  }

  // Queries
  // -------

  /** `isAllowedToBeKilled`: the name occurs in some registered kill list. */
  function IsAllowedToBeKilled(r: Reg, name: string): (b: bool)
    ensures b <==> exists i :: 0 <= i < |r.licenseToKill| && r.licenseToKill[i] == name
  {
    name in r.licenseToKill
  }

  /** `getProcess`: the state label, looking in `ready`, then `running`,
      then `stopped`; an unknown name panics. */
  function GetProcess(r: Reg, name: string): (res: Result<Label, string>)
    ensures res.Ok? <==> name in r.ready || name in r.running || name in r.stopped
    ensures res == Ok(Ready) <==> name in r.ready
    ensures res == Ok(Running) <==> name !in r.ready && name in r.running
    ensures res == Ok(Stopped) <==> name !in r.ready && name !in r.running && name in r.stopped
  {
    if name in r.ready then Ok(Ready)
    else if name in r.running then Ok(Running)
    else if name in r.stopped then Ok(Stopped)
    else Err("WTF?! Unknown process!")
  }

  /** `processes()`: the ready, running and stopped lists concatenated. A name
      in two partitions is listed twice; with disjoint partitions every known
      name is listed once. */
  function Processes(r: Reg): (m: multiset<string>)
    ensures forall n :: n in m <==> n in r.ready || n in r.running || n in r.stopped
    ensures Disjoint(r) ==> forall n :: n in m ==> m[n] == 1
  {
    multiset(r.ready) + multiset(r.running) + multiset(r.stopped)
  }

  datatype Shutdown = Shutdown(reg: Reg, stopSignals: set<string>)

  /** `shutdown`: empty `ready` so nothing more starts, and send `stop` to
      every running process; the partitions are otherwise untouched and
      nothing is published. */
  function ShutdownRegistry(r: Reg): (s: Shutdown)
    ensures s.reg.ready == {}
    ensures s.reg == r.(ready := {})
    ensures s.stopSignals == r.running
  {
    Shutdown(r.(ready := {}), r.running)
  }

  // Registration of a whole configuration
  // -------------------------------------

  /** Registering the parsed services one after the other. */
  function RegisterAll(ps: seq<Proc>): Reg
    decreases |ps|
  {
    if ps == [] then NewRegistry() else Register(RegisterAll(ps[..|ps| - 1]), ps[|ps| - 1])
  }

  /** The configured wait list of every service (a later service of the same
      name replaces an earlier one, as a later `register` does). */
  function WaitConfig(ps: seq<Proc>): map<string, seq<string>>
    decreases |ps|
  {
    if ps == [] then map[] else WaitConfig(ps[..|ps| - 1])[ps[|ps| - 1].name := ps[|ps| - 1].wait]
  }

  /** The names of a list of processes, in order. */
  function Names(ps: seq<Proc>): seq<string> {
    seq(|ps|, i requires 0 <= i < |ps| => ps[i].name)
  }

  /** The kill lists of a list of processes, in order. */
  function Kills(ps: seq<Proc>): seq<seq<string>> {
    seq(|ps|, i requires 0 <= i < |ps| => ps[i].kill)
  }

  /** After registering a configuration every service is ready, nothing runs
      or has stopped, and every service observes the bus, in registration
      order. */
  lemma {:induction false} RegisterAllPartitions(ps: seq<Proc>)
    ensures var r := RegisterAll(ps);
      && r.ready == Elems(Names(ps)) && r.running == {} && r.stopped == {}
      && r.observers == Names(ps)
    decreases |ps|
  {
    if ps != [] {
      var init := ps[..|ps| - 1];
      var p := ps[|ps| - 1];
      RegisterAllPartitions(init);
      NamesSnoc(ps);
      ElemsSnoc(Names(init), p.name);
      RegisterObserves(RegisterAll(init), p);
    }
  }

  /** The names of a non-empty list are those of all but its last element,
      then the last one's. */
  lemma NamesSnoc(ps: seq<Proc>)
    requires ps != []
    ensures Names(ps) == Names(ps[..|ps| - 1]) + [ps[|ps| - 1].name]
  {
    var init := ps[..|ps| - 1];
    assert forall i :: 0 <= i < |init| ==> Names(ps)[i] == Names(init)[i];
  }

  /** Registering a process appends exactly its name to the observers. */
  lemma RegisterObserves(r: Reg, p: Proc)
    ensures Register(r, p).observers == r.observers + [p.name]
  {
    var o := Register(r, p).observers;
    assert o == o[..|r.observers|] + [o[|r.observers|]];
  }

  /** The license-to-kill list is all kill lists concatenated, in
      registration order. */
  lemma {:induction false} RegisterAllLicense(ps: seq<Proc>)
    ensures RegisterAll(ps).licenseToKill == Flatten(Kills(ps))
    decreases |ps|
  {
    if ps != [] {
      var init := ps[..|ps| - 1];
      RegisterAllLicense(init);
      assert Kills(ps) == Kills(init) + [ps[|ps| - 1].kill];
      FlattenAppend(Kills(init), ps[|ps| - 1].kill);
    }
  }

  /** Each registered process is stored under its name with its configured
      wait list. */
  lemma {:induction false} RegisterAllProcs(ps: seq<Proc>)
    ensures var r := RegisterAll(ps);
      && r.procs.Keys == WaitConfig(ps).Keys
      && forall n :: n in r.procs ==> r.procs[n].wait == WaitConfig(ps)[n] && r.procs[n].name == n
    decreases |ps|
  {
    if ps != [] {
      RegisterAllProcs(ps[..|ps| - 1]);
    }
  }

  /** `isAllowedToBeKilled(n)` holds exactly for the names some registered
      process lists under its `kill` hook. */
  lemma LicenseToKillIsKillHooks(ps: seq<Proc>, n: string)
    ensures IsAllowedToBeKilled(RegisterAll(ps), n) <==> exists i :: 0 <= i < |ps| && n in ps[i].kill
  {
    RegisterAllLicense(ps);
    FlattenMember(Kills(ps), n);
    if exists i :: 0 <= i < |ps| && n in ps[i].kill {
      var i :| 0 <= i < |ps| && n in ps[i].kill;
      assert n in Kills(ps)[i];
    }
  }

  /** Gate soundness against a configuration: each process's wait list is
      what remains of its configured list, in order, and every configured
      name that has left it has stopped. */
  ghost predicate GateSound(config: map<string, seq<string>>, r: Reg) {
    forall n :: n in config && n in r.procs ==>
      && IsSubsequence(r.procs[n].wait, config[n])
      && forall x :: x in config[n] && x !in r.procs[n].wait ==> x in r.stopped
  }

  lemma RegisteredGateSound(ps: seq<Proc>)
    ensures GateSound(WaitConfig(ps), RegisterAll(ps))
  {
    RegisterAllProcs(ps);
    var r := RegisterAll(ps);
    forall n | n in WaitConfig(ps) && n in r.procs
      ensures IsSubsequence(r.procs[n].wait, WaitConfig(ps)[n])
    {
      SubsequenceRefl(r.procs[n].wait);
    }
  }

  /** Gate soundness is kept by every later state. */
  lemma GateSoundEvolves(config: map<string, seq<string>>, r: Reg, q: Reg)
    requires GateSound(config, r) && Evolves(r, q)
    ensures GateSound(config, q)
  {
    forall n | n in config && n in q.procs
      ensures IsSubsequence(q.procs[n].wait, config[n])
    {
      SubsequenceTrans(q.procs[n].wait, r.procs[n].wait, config[n]);
    }
  }
}

=== FILE: seqs.dfy ===
/** Sequence vocabulary shared by the model: duplicate-freedom, enumerations
    of a set (how a Go `range` over map keys visits them), subsequences,
    filtering and flattening. */
module Seqs {

  /** No element occurs twice. */
  predicate NoDup<T(==)>(xs: seq<T>) {
    forall i, j :: 0 <= i < j < |xs| ==> xs[i] != xs[j]
  }

  /** The elements of a sequence, as a set. */
  function Elems<T>(xs: seq<T>): set<T> {
    set x | x in xs
  }

  /** Dropping the head keeps a list duplicate-free, and the head does not
      occur again. */
  lemma NoDupTail<T>(xs: seq<T>)
    requires xs != [] && NoDup(xs)
    ensures NoDup(xs[1..]) && xs[0] !in xs[1..]
  {
    var tail := xs[1..];
    forall i, j | 0 <= i < j < |tail| ensures tail[i] != tail[j] {
      assert tail[i] == xs[i + 1] && tail[j] == xs[j + 1];
    }
    forall i | 0 <= i < |tail| ensures tail[i] != xs[0] {
      assert tail[i] == xs[i + 1];
    }
  }

  /** Appending one element adds exactly that element. */
  lemma ElemsSnoc<T>(xs: seq<T>, x: T)
    ensures Elems(xs + [x]) == Elems(xs) + {x}
  {
    assert forall y :: y in xs + [x] <==> y in xs || y == x;
  }

  /** Only the empty sequence has no elements. */
  lemma ElemsEmpty<T>(xs: seq<T>)
    ensures Elems(xs) == {} <==> xs == []
  {
    if xs != [] {
      assert xs[0] in Elems(xs);
    }
  }

  /** `xs` visits every element of `s` exactly once, in some order: the
      contract of a Go `for k := range m` over the keys of a map. */
  predicate Enumerates<T(==)>(xs: seq<T>, s: set<T>) {
    NoDup(xs) && Elems(xs) == s
  }

  /** Enumerations of disjoint sets concatenate to an enumeration of their
      union. */
  lemma EnumeratesAppend<T>(a: seq<T>, b: seq<T>, sa: set<T>, sb: set<T>)
    requires Enumerates(a, sa) && Enumerates(b, sb) && sa !! sb
    ensures Enumerates(a + b, sa + sb)
  {
    var ab := a + b;
    assert Elems(ab) == Elems(a) + Elems(b) by {
      forall x | x in ab ensures x in a || x in b {
        var k :| 0 <= k < |ab| && ab[k] == x;
        if k >= |a| { assert b[k - |a|] == x; }
      }
    }
    forall i, j | 0 <= i < j < |ab|
      ensures ab[i] != ab[j]
    {
      if j < |a| {
        assert ab[i] == a[i] && ab[j] == a[j];
      } else if i >= |a| {
        assert ab[i] == b[i - |a|] && ab[j] == b[j - |a|];
      } else {
        assert ab[i] == a[i] && ab[j] == b[j - |a|];
        assert ab[i] in Elems(a) && ab[j] in Elems(b);
      }
    }
  }

  /** `a` is obtained from `b` by deleting elements; the survivors keep their
      relative order. */
  predicate IsSubsequence<T(==)>(a: seq<T>, b: seq<T>)
    decreases |b|
  {
    if a == [] then true
    else if b == [] then false
    else if a[0] == b[0] then IsSubsequence(a[1..], b[1..])
    else IsSubsequence(a, b[1..])
  }

  lemma {:induction false} SubsequenceRefl<T>(a: seq<T>)
    ensures IsSubsequence(a, a)
    decreases |a|
  {
    if a != [] {
      SubsequenceRefl(a[1..]);
    }
  }

  lemma {:induction false} SubsequenceMembers<T>(a: seq<T>, b: seq<T>)
    requires IsSubsequence(a, b)
    ensures forall x :: x in a ==> x in b
    decreases |b|
  {
    if a != [] && b != [] {
      if a[0] == b[0] {
        SubsequenceMembers(a[1..], b[1..]);
        assert forall x :: x in a ==> x == a[0] || x in a[1..];
      } else {
        SubsequenceMembers(a, b[1..]);
      }
    }
  }

  lemma {:induction false} SubsequenceDrop<T>(a: seq<T>, b: seq<T>)
    requires a != [] && IsSubsequence(a, b)
    ensures IsSubsequence(a[1..], b)
    decreases |b|, |a|
  {
    if a[0] == b[0] {
      SubsequenceTail(a[1..], b);
    } else {
      SubsequenceDrop(a, b[1..]);
      SubsequenceTail(a[1..], b);
    }
  }

  lemma {:induction false} SubsequenceTail<T>(a: seq<T>, b: seq<T>)
    requires b != [] && IsSubsequence(a, b[1..])
    ensures IsSubsequence(a, b)
    decreases |b|, |a|
  {
    if a != [] && a[0] == b[0] {
      SubsequenceDrop(a, b[1..]);
    }
  }

  lemma {:induction false} SubsequenceTrans<T>(a: seq<T>, b: seq<T>, c: seq<T>)
    requires IsSubsequence(a, b) && IsSubsequence(b, c)
    ensures IsSubsequence(a, c)
    decreases |c|
  {
    if a != [] {
      if b[0] == c[0] {
        if a[0] == b[0] {
          SubsequenceTrans(a[1..], b[1..], c[1..]);
        } else {
          SubsequenceTrans(a, b[1..], c[1..]);
        }
      } else {
        SubsequenceTrans(a, b, c[1..]);
        SubsequenceTail(a, c);
      }
    }
  }

  /** Cutting out one position leaves a subsequence. */
  lemma {:induction false} CutIsSubsequence<T>(w: seq<T>, i: nat)
    requires i < |w|
    ensures IsSubsequence(w[..i] + w[i + 1..], w)
    decreases i
  {
    if i == 0 {
      assert w[..i] + w[i + 1..] == w[1..];
      SubsequenceRefl(w[1..]);
      SubsequenceTail(w[1..], w);
    } else {
      var a := w[..i] + w[i + 1..];
      CutIsSubsequence(w[1..], i - 1);
      assert a[0] == w[0];
      assert a[1..] == w[1..][..i - 1] + w[1..][i - 1 + 1..];
    }
  }

  /** Concatenation of a list of lists, in order. */
  function Flatten<T>(xss: seq<seq<T>>): seq<T> {
    if xss == [] then [] else xss[0] + Flatten(xss[1..])
  }

  lemma {:induction false} FlattenAppend<T>(xss: seq<seq<T>>, ys: seq<T>)
    ensures Flatten(xss + [ys]) == Flatten(xss) + ys
  {
    if xss == [] {
      assert xss + [ys] == [ys];
    } else {
      assert (xss + [ys])[1..] == xss[1..] + [ys];
      FlattenAppend(xss[1..], ys);
    }
  }

  lemma {:induction false} FlattenMember<T>(xss: seq<seq<T>>, x: T)
    ensures x in Flatten(xss) <==> exists i :: 0 <= i < |xss| && x in xss[i]
  {
    if xss != [] {
      FlattenMember(xss[1..], x);
      if x in xss[0] {
        assert x in Flatten(xss);
      }
      if exists i :: 0 <= i < |xss| && x in xss[i] {
        var i :| 0 <= i < |xss| && x in xss[i];
        if i > 0 {
          assert x in xss[1..][i - 1];
        }
      }
      if exists i :: 0 <= i < |xss| - 1 && x in xss[1..][i] {
        var i :| 0 <= i < |xss| - 1 && x in xss[1..][i];
        assert x in xss[i + 1];
      }
    }
  }
}

=== FILE: utils.dfy ===
/** utils.go: named-capture lookup. */
module Utils {

  /** Position `i` carries the last occurrence of its name. */
  predicate LastNamed(names: seq<string>, i: int)
    requires 0 <= i < |names|
  {
    forall j :: i < j < |names| ==> names[j] != names[i]
  }

  /** The names at positions 1 and above. */
  function NamedKeys(names: seq<string>): set<string>
    decreases |names|
  {
    if |names| <= 1 then {} else NamedKeys(names[..|names| - 1]) + {names[|names| - 1]}
  }

  /** `MatcherLookup(match, re)` with `names = re.SubexpNames()`: every
      position `i >= 1` stores `captures[i]` under `names[i]`, a later position
      overwriting an earlier one with the same name; position 0 (the whole
      match) is skipped. Indexing the captures by every name position needs
      `|captures| >= |names|`; with fewer captures the Go code panics. */
  function MatcherLookup(captures: seq<string>, names: seq<string>): (m: map<string, string>)
    requires |captures| >= |names|
    ensures m.Keys == NamedKeys(names)
    ensures forall i :: 1 <= i < |names| && LastNamed(names, i) ==>
      names[i] in m && m[names[i]] == captures[i]
    decreases |names|
  {
    if |names| <= 1 then map[]
    else
      var last := |names| - 1;
      var m' := MatcherLookup(captures, names[..last]);
      LookupStep(captures, names, names[..last], m');
      m'[names[last] := captures[last]]
  }

  lemma LookupStep(captures: seq<string>, names: seq<string>, prefix: seq<string>, m': map<string, string>)
    requires |captures| >= |names| >= 2 && prefix == names[..|names| - 1]
    requires forall i :: 1 <= i < |prefix| && LastNamed(prefix, i) ==>
      prefix[i] in m' && m'[prefix[i]] == captures[i]
    ensures var m := m'[names[|names| - 1] := captures[|names| - 1]];
      forall i :: 1 <= i < |names| && LastNamed(names, i) ==> names[i] in m && m[names[i]] == captures[i]
  {
    var last := |names| - 1;
    var m := m'[names[last] := captures[last]];
    forall i | 1 <= i < |names| && LastNamed(names, i)
      ensures names[i] in m && m[names[i]] == captures[i]
    {
      if i < last {
        assert names[last] != names[i];
        assert prefix[i] == names[i];
        assert LastNamed(prefix, i);
      }
    }
  }

  /** The key set of the lookup is exactly the names at positions 1 and
      above: position 0 never contributes a key of its own, while an
      unnamed group from position 1 on contributes the key "". */
  lemma {:induction false} NamedKeysExactly(names: seq<string>, k: string)
    ensures k in NamedKeys(names) <==> exists i :: 1 <= i < |names| && names[i] == k
    decreases |names|
  {
    if |names| > 1 {
      var prefix := names[..|names| - 1];
      NamedKeysExactly(prefix, k);
      if exists i :: 1 <= i < |prefix| && prefix[i] == k {
        var i :| 1 <= i < |prefix| && prefix[i] == k;
        assert names[i] == k;
      }
      if exists i :: 1 <= i < |names| && names[i] == k {
        var i :| 1 <= i < |names| && names[i] == k;
        if i < |prefix| {
          assert prefix[i] == k;
        }
      }
    }
  }
}

=== FILE: wrappers.dfy ===
/** Failure-carrying values used across the model: an absent value, and the
    outcome of an operation that can panic or return a Go `error`. */
module Wrappers {

  datatype Option<+T> = None | Some(value: T)

  /** `Err` stands for a returned Go error or for a panic, with its message. */
  datatype Result<+T, +E> = Ok(value: T) | Err(error: E)
}
